=== FILE: README.md ===
# Labelled training data for query and product classifiers — a Dafny model

This project models the two scripts that prepare fastText training files:

* `week3/create_labeled_queries.py` does the following:
  * It reads the category tree into a parent map. The root `cat00000` is never a key.
  * It keeps only search-query rows whose category is a key of that map.
  * It normalises each query: lower case, non-alphanumerics to spaces, runs of whitespace to one space, split on `' '`, stem each piece, join with `' '`.
  * While some category has fewer than `min_queries` rows, it moves every row of such a category to the category's parent. The parent lookup is a left merge, so a category that has no parent (the root, or an id outside the tree) becomes missing.
  * It drops every row whose final category is not a key, and writes `__label__<category> <query>`.
* `week2/createContentTrainingData.py` does the following:
  * It turns every product of every catalogue file into a (category, name) pair. The product must have a name, a non-empty category path, a leaf id, the root as the first path element, and a second path element other than `abcat0600000` (music and movies).
  * The category is the leaf id or, with name labels, the leaf name with spaces turned into underscores.
  * Newlines in the name become spaces, and `transform_name` leaves the name as it is.
  * When `min_products > 0`, it counts the pairs per category over all files.
  * It writes a pair only when `min_products > 0` and its category has at least `min_products` pairs. With the default `min_products` of 0, nothing is written.

Modules:

* `Wrappers` holds `Option` and `Result`.
* `Collections` counts keyed elements and holds `Tally`, the dictionary counting loop.
* `Text` holds the string operations: ASCII lower, character class cleaning, whitespace collapsing, Python's `split(' ')` and `' '.join`, and `str.replace` of one character.
* `QueryNormalizer` is `normalize_query`, with the stemmer as a parameter.
* `FastText` is the output line format, with a reader as its inverse.
* `Taxonomy` covers parsing the category file, the parent map, parent lookup with a missing result, and the depth that bounds the rollup.
* `CategoryRollup` holds one relabelling pass, the rollup as a terminating function, and the `while min_queries > 1` loop as a method proved equal to it.
* `LabeledQueries` is the whole query script.
* `RollupExample` is a worked example of the rollup.
* `CyclicTaxonomy` is a two-entry category file whose parent map is a cycle.
* `ContentTraining` is the whole product script.

Each step of the pipelines is a pure function over immutable data. The errors that end a run and are modelled are `Err` results:

* an `IndexError` on a malformed category entry;
* a `TypeError` when the rollup leaves every loaded query row missing: the relabelling `apply` then yields only NaN, pandas stores the category column as floats, and adding the `__label__` prefix fails;
* an `IndexError` on a product that has a name and whose category path has only the root.

A query cell that the CSV reader turns into NaN also ends the query run, with an `AttributeError` in `normalize_query`. That error is not modelled (see "Left out").

Points of the code's behaviour that the model keeps:

* **Root records.** The group count includes the root like any other category. A root that has too few rows is therefore deficient. The left merge gives it no parent, so its rows become missing on the next pass, and the final filter drops them. `CategoryRollup.Rollup` guarantees that every category still present has at least `min_queries` rows.
* **Entry ids.** The parsing loop reads each entry's own id but never uses it: the edge comes from the path alone. The model has no entry id.
* **Malformed entries.** A malformed entry raises `IndexError` and ends the run.
* **Cyclic maps.** The loop has no iteration cap. It is entered only when `min_queries > 1`, so at the default threshold of one a cyclic category file does no harm (`LabeledQueries.CyclicFileAtDefaultThreshold`). Above one, the model requires an acyclic parent map. On a cyclic map the loop ends or runs forever depending on the counts: `CategoryRollup.CyclicMapNeverConverges` shows a lone row that alternates between the two categories of a two-cycle, and `CategoryRollup.CyclicMapCanConverge` shows rows on the same cycle that settle after one pass.

## Model

| member | source | states |
|---|---|---|
| Text.Lower | week3/create_labeled_queries.py:14 | same length; no upper-case letter is left; other characters are unchanged; each upper-case letter becomes the lower-case letter at the same place in the alphabet |
| Text.LowerFixedPoints | week3/create_labeled_queries.py:14 | lowering leaves a string unchanged exactly when it has no upper-case letter |
| Text.Clean | week3/create_labeled_queries.py:15 | same length; the result holds only `a-z`, `0-9` and spaces; alphanumerics are kept and every other character becomes a space |
| Text.CleanFixedPoints | week3/create_labeled_queries.py:15 | cleaning leaves a string unchanged exactly when it already holds only `a-z`, `0-9` and spaces |
| Text.CollapseFrom | week3/create_labeled_queries.py:16 | the result is no longer than the input, holds no whitespace other than single spaces, and never has two spaces in a row |
| Text.Collapse | week3/create_labeled_queries.py:16 | the result is the maximal non-whitespace runs of the input joined by single spaces, with an empty run at an end where the input starts or ends with whitespace; splitting it on `' '` gives exactly those runs |
| Text.Tokens | week3/create_labeled_queries.py:16 | an independent reading of the input as the pieces between whitespace runs: at least one piece, no piece holds whitespace, and only the first and last piece can be empty |
| Text.WordLength | week3/create_labeled_queries.py:16 | the length of the leading run of non-whitespace characters, which is followed by whitespace or the end |
| Text.GapLength | week3/create_labeled_queries.py:16 | the length of the leading run of whitespace characters, which is followed by a non-whitespace character or the end |
| Text.CollapseWord | week3/create_labeled_queries.py:16 | a leading word is copied as it is |
| Text.CollapseGap | week3/create_labeled_queries.py:16 | a leading whitespace run becomes one space, or nothing directly after a space |
| Text.CollapseIsJoinOfTokens | week3/create_labeled_queries.py:16 | collapsing equals joining the whitespace-separated pieces with single spaces |
| Text.CollapseKeepsWords | week3/create_labeled_queries.py:16 | collapsing keeps every non-whitespace character, in order |
| Text.CollapseFixedPoints | week3/create_labeled_queries.py:16 | collapsing leaves a string unchanged exactly when its only whitespace is single spaces |
| Text.CollapseKeepsAlphabet | week3/create_labeled_queries.py:15-16 | collapsing a cleaned string keeps it within `a-z`, `0-9` and space |
| Text.Split | week3/create_labeled_queries.py:17 | `split(' ')` yields at least one piece, and no piece holds a space (empty pieces are kept) |
| Text.JoinSplit | week3/create_labeled_queries.py:17 | joining the pieces of a split with single spaces gives back the string |
| Text.Join | week3/create_labeled_queries.py:17 | splitting the join of one or more space-free pieces gives back exactly those pieces, empty ones included |
| Text.SplitWord | week3/create_labeled_queries.py:17 | a space-free string splits into itself alone |
| Text.SplitAfterSpace | week3/create_labeled_queries.py:17 | a space-free word followed by a space splits off as the first piece |
| Text.JoinStartsWithSpace | week3/create_labeled_queries.py:17 | a join starts with a space exactly when there are two or more pieces and the first is empty |
| Text.NoDoubleSpaceJoin | week3/create_labeled_queries.py:17 | a join has no two spaces in a row exactly when no inner piece is empty |
| Text.JoinInAlphabet | week3/create_labeled_queries.py:17 | joining alphanumeric pieces gives a string over `a-z`, `0-9` and space |
| Text.SplitAlnum | week3/create_labeled_queries.py:15-17 | every piece of a split of a cleaned string is alphanumeric |
| Text.ReplaceChar | week2/createContentTrainingData.py:52-56 | same length; the replaced character is changed everywhere and nothing else is; the replaced character no longer occurs |
| QueryNormalizer.Canonical | week3/create_labeled_queries.py:14-16 | the normalised text before stemming holds only `a-z`, `0-9` and single spaces |
| QueryNormalizer.CanonicalFixedPoints | week3/create_labeled_queries.py:14-16 | text before stemming is unchanged by the three rewrites exactly when it already has that shape |
| QueryNormalizer.Normalize | week3/create_labeled_queries.py:13-17 | with a stemmer that keeps space-free pieces space-free, the normalised query splits back into exactly the stemmed pieces, one per piece of the cleaned query, empty pieces included |
| QueryNormalizer.NormalizeInAlphabet | week3/create_labeled_queries.py:13-17 | with a stemmer that keeps pieces alphanumeric, the normalised query holds only `a-z`, `0-9` and spaces |
| QueryNormalizer.NormalizeIdempotent | week3/create_labeled_queries.py:13-17 | with a stemmer that is idempotent, keeps pieces alphanumeric and maps only the empty piece to empty, normalising twice equals normalising once |
| QueryNormalizer.NormalizeIdentityIdempotent | week3/create_labeled_queries.py:13-17 | without stemming, normalising twice equals normalising once |
| FastText.Line | week3/create_labeled_queries.py:82-86 | a line is the label prefix, the category, one space and the text, at those positions |
| FastText.LineRoundTrip | week2/createContentTrainingData.py:77 | a line whose category has no space reads back as exactly its category and text |
| FastText.ParseLineSound | week3/create_labeled_queries.py:86 | every line that reads back was written from a space-free category and its text |
| Taxonomy.EdgeOf | week3/create_labeled_queries.py:45-51 | an entry raises exactly when its path is empty or is a single non-root id; the root entry adds nothing; any other entry adds the edge from its leaf to the id before it, and that leaf is never the root |
| Taxonomy.ParentTable | week3/create_labeled_queries.py:42-51 | the table is an error exactly when some entry is malformed, and otherwise has at most one row per entry |
| Taxonomy.ParentTableSound | week3/create_labeled_queries.py:45-51 | each row of the table is the edge of some entry, and its category is never the root |
| Taxonomy.ParentTableComplete | week3/create_labeled_queries.py:48-51 | every entry whose leaf is not the root has its row: the leaf and the id before it |
| Taxonomy.ToMap | week3/create_labeled_queries.py:52 | the keys are exactly the table's categories, and each key maps to a parent listed for it in the table |
| Taxonomy.BuildParentMap | week3/create_labeled_queries.py:35-52 | parsing fails exactly when some entry is malformed; the root is never a key |
| Taxonomy.ParentIsPreviousOnPath | week3/create_labeled_queries.py:48-51 | every key's parent is the id just before that key on the path of an entry ending in it |
| Taxonomy.EveryNonRootLeafIsAKey | week3/create_labeled_queries.py:48-50 | every entry with a non-root leaf makes that leaf a key |
| Taxonomy.ParentOf | week3/create_labeled_queries.py:72 | the left merge finds a parent exactly for keys, and it is the key's parent |
| Taxonomy.ParentIsShallower | week3/create_labeled_queries.py:72-78 | in an acyclic map one parent lookup lowers the depth by exactly one, down to missing |
| Taxonomy.ClimbLeaves | week3/create_labeled_queries.py:62-79 | in an acyclic map, climbing as many steps as the depth reaches missing, and any climb lowers the depth |
| Taxonomy.NoCategoryIsItsOwnAncestor | week3/create_labeled_queries.py:44-51 | in an acyclic map no category is reached again by climbing from it |
| Collections.Count | week3/create_labeled_queries.py:63 | a group size never exceeds the number of rows |
| Collections.CountPositive | week3/create_labeled_queries.py:63 | a category has a positive count exactly when some row carries it |
| Collections.CountAll | week3/create_labeled_queries.py:63 | a category's count equals the number of rows exactly when every row carries it |
| Collections.Tally | week2/createContentTrainingData.py:64-69 | after the counting loop a category is a key exactly when some pair carries it, and its value is the number of pairs that carry it |
| CategoryRollup.Relabel | week3/create_labeled_queries.py:75-77 | a row keeps its text; a missing category stays missing; a category with enough rows is kept; a deficient one is replaced by its parent, or missing when it has none |
| CategoryRollup.RelabelShallower | week3/create_labeled_queries.py:72-77 | in an acyclic map a relabelled row moves strictly closer to the root |
| CategoryRollup.Step | week3/create_labeled_queries.py:63-79 | one pass keeps the row count and texts; missing stays missing; rows of categories with enough rows are unchanged; rows of deficient categories move to the parent, or to missing when there is none |
| CategoryRollup.StepDescends | week3/create_labeled_queries.py:62-79 | in an acyclic map a pass that still has a deficient category strictly lowers the total depth of the rows, so the loop ends |
| CategoryRollup.StepFixedPoints | week3/create_labeled_queries.py:66-68 | a pass changes nothing exactly when no category is deficient, which is the loop's exit test |
| CategoryRollup.StepKeepsSupported | week3/create_labeled_queries.py:75-77 | a category with enough rows keeps all of them through a pass and does not shrink |
| CategoryRollup.Rollup | week3/create_labeled_queries.py:61-79 | the rollup keeps the row count and texts; with a threshold of at most one it changes nothing; otherwise every category still present has at least the threshold number of rows |
| CategoryRollup.RollupKeepsSupported | week3/create_labeled_queries.py:62-79 | rows of a category that starts with enough rows keep that category to the end |
| CategoryRollup.RollupClimbs | week3/create_labeled_queries.py:72-78 | each row ends at some ancestor of its starting category, or at missing |
| CategoryRollup.ShortTableRollsAway | week3/create_labeled_queries.py:62-79 | with a threshold above the number of rows, every row of a non-empty table ends missing, the root included |
| CategoryRollup.RollupKeepsMissing | week3/create_labeled_queries.py:75-77 | a missing category stays missing, because a missing `has_min_queries` counts as true |
| CategoryRollup.RelabelPass | week3/create_labeled_queries.py:72-79 | the merge-and-apply loop, given the group counts, computes exactly one pass |
| CategoryRollup.RollupLoop | week3/create_labeled_queries.py:62-79 | the `while min_queries > 1` loop (count, test for deficient categories, break or relabel) computes exactly the rollup |
| CategoryRollup.CyclicMapNeverConverges | week3/create_labeled_queries.py:62-79 | on the two-cycle `a -> b -> a`, a lone row at threshold 2 alternates between `a` and `b` and never converges, and the map is not acyclic |
| CategoryRollup.CyclicMapCanConverge | week3/create_labeled_queries.py:62-79 | on the same two-cycle, rows `a, a, b` at threshold 2 become `a, a, a` after one pass, and the next count finds nothing short |
| CategoryRollup.SizeOfThree | week3/create_labeled_queries.py:63 | the group size of a three-row table is the number of its rows that carry the category |
| CyclicTaxonomy.CyclicFileParents | week3/create_labeled_queries.py:42-52 | the category file with paths `[b, a]` and `[a, b]` parses into the parent map `a -> b`, `b -> a` |
| RollupExample.FirstPass | week3/create_labeled_queries.py:63-79 | with parents `A, B -> root`, `C -> A`, rows `A x3, B, C x2` and threshold 2, the first pass finds `B` deficient and moves it to the root |
| RollupExample.SecondPass | week3/create_labeled_queries.py:63-79 | the second pass finds the root deficient and makes its row missing |
| RollupExample.ExampleRollup | week3/create_labeled_queries.py:62-79 | the loop on the example stops after the two passes, at the third count |
| RollupExample.ExampleOutput | week3/create_labeled_queries.py:82-86 | the final filter on the rolled-up example writes `__label__A x` three times and `__label__C z` twice, in row order |
| RollupExample.WorkedExample | week3/create_labeled_queries.py:62-86 | the example map is acyclic, the rollup ends after those two passes, and the output is `__label__A x` three times and `__label__C z` twice |
| LabeledQueries.LoadQueries | week3/create_labeled_queries.py:55-59 | the loaded rows all have key categories, are at most as many as the CSV rows, and include the normalised form of every row whose category is a key |
| LabeledQueries.LoadQueriesSound | week3/create_labeled_queries.py:56-59 | every loaded row is the normalised form of a CSV row whose category is a key |
| LabeledQueries.LoadQueriesAppend | week3/create_labeled_queries.py:55-56 | loading keeps the CSV order |
| LabeledQueries.Emit | week3/create_labeled_queries.py:82-86 | at most one line per row, and every row whose category is a key gets its line |
| LabeledQueries.EmitSound | week3/create_labeled_queries.py:85-86 | every line is the line of a row whose category is a key |
| LabeledQueries.EmitAppend | week3/create_labeled_queries.py:85-87 | output keeps the row order |
| LabeledQueries.EmitKeepsKnownRows | week3/create_labeled_queries.py:85 | when every category is a key, every row is written |
| LabeledQueries.EmittedCategoriesAreSupported | week3/create_labeled_queries.py:62-86 | after a rollup with a threshold above one, each line's category has at least that many rows, and the line carries the original row's normalised text |
| LabeledQueries.LabelQueries | week3/create_labeled_queries.py:42-87 | the script raises `IndexError` exactly when a category entry is malformed; its only other error is the `TypeError` of labelling an all-NaN column, which needs a threshold above one and at least one CSV row; otherwise it writes at most one line per CSV row |
| LabeledQueries.ThresholdAboveRowCountRaises | week3/create_labeled_queries.py:61-82 | a threshold above the number of loaded rows, with at least one row loaded, ends the run with the `TypeError` and writes nothing |
| LabeledQueries.NoRollupKeepsEveryKnownRow | week3/create_labeled_queries.py:55-86 | with a threshold of at most one, whatever the parent map, every loaded row is written, one line each |
| LabeledQueries.CyclicFileAtDefaultThreshold | week3/create_labeled_queries.py:61-62 | a category file whose parent map is a cycle still yields a result at threshold one: the loop is not entered and every loaded row is written |
| ContentTraining.TransformName | week2/createContentTrainingData.py:9-11 | the name hook returns the name unchanged |
| ContentTraining.ExtractProduct | week2/createContentTrainingData.py:44-57 | a product that has a name raises exactly when its path is just the root (a product without a name is skipped before the path is read); it yields a pair exactly when it passes all five checks; the name has newlines turned into spaces; the label is the leaf id, or the space-free leaf name |
| ContentTraining.LabelFile | week2/createContentTrainingData.py:39-58 | a file fails exactly when one of its products raises; otherwise it yields at most one pair per product, including the pair of every eligible product |
| ContentTraining.LabelFileSound | week2/createContentTrainingData.py:43-57 | every pair of a file is the pair of one of its eligible products |
| ContentTraining.LabelFileAppend | week2/createContentTrainingData.py:43-58 | pairs follow document order |
| ContentTraining.CollectLabels | week2/createContentTrainingData.py:61-74 | collecting fails exactly when some file fails; otherwise the pair of every eligible product of every file is collected |
| ContentTraining.CollectLabelsOne | week2/createContentTrainingData.py:62-67 | a single file contributes exactly the pairs of `_label_filename` on it, no more, no fewer, in the same order, and fails exactly when it does |
| ContentTraining.CollectLabelsSound | week2/createContentTrainingData.py:66-75 | every collected pair is the pair of an eligible product of some file |
| ContentTraining.CollectLabelsAppend | week2/createContentTrainingData.py:62-67 | pairs follow file order |
| ContentTraining.WriteLines | week2/createContentTrainingData.py:74-77 | at most one line per pair; nothing at all when the threshold is not positive; a line for every pair whose category reaches the threshold |
| ContentTraining.WriteLinesAppend | week2/createContentTrainingData.py:74-77 | the writing pass judges each pair on its own: writing two runs of pairs is writing each, so duplicate pairs give duplicate lines, in order |
| ContentTraining.WriteLinesOne | week2/createContentTrainingData.py:75-77 | one pair gives exactly its line when its category reaches the threshold, and nothing otherwise |
| ContentTraining.WriteLinesSound | week2/createContentTrainingData.py:75-77 | every written line is the line of a pair whose category reaches a positive threshold |
| ContentTraining.TrainingLines | week2/createContentTrainingData.py:60-77 | the run fails exactly when some file fails; with `min_products` of 0 nothing is written; every pair whose category reaches the threshold is written |
| ContentTraining.TrainingLinesByFiles | week2/createContentTrainingData.py:64-77 | the lines of two runs of files are the first run's lines followed by the second's, each pair judged against the counts over all files; the run fails exactly when one of the runs does |
| ContentTraining.TrainingLinesSound | week2/createContentTrainingData.py:64-77 | every written line comes from an eligible product whose category has at least `min_products` pairs over all files |
| ContentTraining.CountsDecideWritten | week2/createContentTrainingData.py:76 | with a positive threshold, every pair's category is in `num_products`, and its entry reaching the threshold is exactly the writing test |
| ContentTraining.WritePassStep | week2/createContentTrainingData.py:75-77 | one turn of the writing loop: the `num_products` test decides the current pair, and the rest of the pass follows |
| ContentTraining.WritePass | week2/createContentTrainingData.py:74-77 | the writing loop, given the counts, writes exactly the lines of the pairs that pass the test, in order |
| ContentTraining.WriteTrainingData | week2/createContentTrainingData.py:60-77 | collecting, counting into `num_products` when the threshold is positive, and the writing loop compute exactly those lines |

## Left out

- Argument parsing, file paths, the output directory, and reading and writing files. The scripts' inputs are given as values, and their output as a sequence of lines without terminators.
- XML parsing. Category entries are given as their lists of path ids. Products are given as a name that may be absent plus a list of (id that may be absent, name) path nodes.
- A path node without an id or name child, which raises in the source, and a missing leaf name under name labels. These cannot be expressed in the parsed form above.
- LabeledQueries.LabelQueries: a query cell that the CSV reader turns into NaN (an empty cell, `NA`, `null`, `nan` and the like) makes `normalize_query` raise `AttributeError`. Query cells are modelled as strings, so this error is not modelled.
- The CSV reader and the CSV writer's escaping. The output uses `|` as separator, `\` as escape character and `"` as quote character with quoting off, so a `|`, `\` or `"` in a line would gain a backslash. Normalised queries contain none of them, but category ids are written as they are.
- Pandas mechanics beyond what the data shows: column selection, dropped helper columns and row indexes.
- Duplicate category ids in the category file. A pandas merge would duplicate the rows of such a category; the model's parent map keeps the last entry.
- The Porter stemmer. It is a parameter `stem`, and the idempotence lemma assumes the properties it needs from it.
- QueryNormalizer.Canonical: lower-casing and `\s` are modelled for ASCII only. Python also lower-cases non-ASCII letters, and a few of them become ASCII letters that survive cleaning (the Kelvin sign `\u212a` becomes `k`); the model turns every non-ASCII character into a space. The model's `\s` covers only space and `\t` to `\r`; Python's also matches `\x1c` to `\x1f` and Unicode whitespace. Those characters are already spaces after cleaning, so the normalised query is the same.
- The `print` progress messages, `tqdm`, and the worker pool. The pool's `imap` yields per-file results in file order, which the model takes as the concatenation of those results. Both passes of the product script see the same pairs.
- `createSynonyms.py`, which is a separate script.
- The `int(args.min_queries)` conversion. The threshold is an integer parameter.
- LabeledQueries.LabelQueries: with a threshold above one, defined only for category files whose parent map is acyclic. On a cyclic map the source loop ends or runs forever depending on the counts (`CategoryRollup.CyclicMapCanConverge`, `CategoryRollup.CyclicMapNeverConverges`); neither outcome is modelled.
- CategoryRollup.Rollup: with a threshold above one, defined only on acyclic maps, for the same reason.
- CategoryRollup.RollupLoop: with a threshold above one, requires an acyclic map, for the same reason.

=== FILE: collections.dfy ===
/** Counting elements by key: the one aggregation both scripts perform
    (a pandas group-by size in the query script, a dictionary of counters
    in the product script). */
module Collections {
  import opened Wrappers

  /** How many elements of `xs` carry the key `k`. Elements whose key is
      `None` are never counted, the way a group-by skips missing keys. */
  function Count<A, K(==)>(xs: seq<A>, key: A -> Option<K>, k: K): (n: nat)
    ensures n <= |xs|
  {
    if |xs| == 0 then 0
    else Count(xs[..|xs| - 1], key, k) + (if key(xs[|xs| - 1]) == Some(k) then 1 else 0)
  }

  /** Counting a prefix one element longer adds that element's hit. */
  lemma PrefixCount<A, K>(xs: seq<A>, key: A -> Option<K>, k: K, n: nat)
    requires 0 < n <= |xs|
    ensures Count(xs[..n], key, k) == Count(xs[..n - 1], key, k) + (if key(xs[n - 1]) == Some(k) then 1 else 0)
  {
    assert xs[..n][..n - 1] == xs[..n - 1];
  }

  /** A key is counted at least once exactly when some element carries it. */
  lemma {:induction false} CountPositive<A, K>(xs: seq<A>, key: A -> Option<K>, k: K)
    ensures Count(xs, key, k) > 0 <==> exists i :: 0 <= i < |xs| && key(xs[i]) == Some(k)
    decreases |xs|
  {
    if |xs| > 0 {
      var init := xs[..|xs| - 1];
      CountPositive(init, key, k);
      if exists i :: 0 <= i < |init| && key(init[i]) == Some(k) {
        var i :| 0 <= i < |init| && key(init[i]) == Some(k);
        assert key(xs[i]) == Some(k);
      }
      if exists i :: 0 <= i < |xs| && key(xs[i]) == Some(k) {
        var i :| 0 <= i < |xs| && key(xs[i]) == Some(k);
        if i < |xs| - 1 {
          assert key(init[i]) == Some(k);
        }
      }
    }
  }

  /** A key is counted once per element exactly when every element carries it. */
  lemma {:induction false} CountAll<A, K>(xs: seq<A>, key: A -> Option<K>, k: K)
    ensures Count(xs, key, k) == |xs| <==> forall i :: 0 <= i < |xs| ==> key(xs[i]) == Some(k)
    decreases |xs|
  {
    if |xs| > 0 {
      var init := xs[..|xs| - 1];
      CountAll(init, key, k);
      assert forall i :: 0 <= i < |init| ==> init[i] == xs[i];
    }
  }

  /** If every element of `xs` carrying `k` sits at a position where `ys` also
      carries `k`, then `ys` carries `k` at least as often. */
  lemma {:induction false} CountMonotone<A, K>(xs: seq<A>, ys: seq<A>, key: A -> Option<K>, k: K)
    requires |xs| == |ys|
    requires forall i :: 0 <= i < |xs| && key(xs[i]) == Some(k) ==> key(ys[i]) == Some(k)
    ensures Count(xs, key, k) <= Count(ys, key, k)
    decreases |xs|
  {
    if |xs| > 0 {
      var n := |xs| - 1;
      forall i | 0 <= i < n && key(xs[..n][i]) == Some(k)
        ensures key(ys[..n][i]) == Some(k)
      {
        assert xs[..n][i] == xs[i];
      }
      CountMonotone(xs[..n], ys[..n], key, k);
    }
  }

  /** Builds the counter map `m[k] = 1 + m.get(k, 0)` element by element: its
      keys are exactly the keys that occur, each mapped to its count. */
  method Tally<A, K(==)>(xs: seq<A>, key: A -> Option<K>) returns (counts: map<K, nat>)
    ensures forall k :: k in counts <==> Count(xs, key, k) > 0
    ensures forall k :: k in counts ==> counts[k] == Count(xs, key, k)
  {
    counts := map[];
    var i := 0;
    while i < |xs|
      invariant 0 <= i <= |xs|
      invariant forall k :: k in counts <==> Count(xs[..i], key, k) > 0
      invariant forall k :: k in counts ==> counts[k] == Count(xs[..i], key, k)
    {
      assert xs[..i + 1][..i] == xs[..i];
      match key(xs[i]) {
        case None =>
        case Some(k) =>
          counts := counts[k := 1 + (if k in counts then counts[k] else 0)];
      }
      i := i + 1;
    }
    assert xs[..|xs|] == xs;
  }
}

=== FILE: content_training.dfy ===
/** The product-labelling script: every product of every XML file becomes a
    (category, name) pair when its name and category path pass the checks,
    the pairs are optionally counted per category, and a pair is written as
    a fastText line only when its category reaches `min_products`. The XML
    tree is given as already-parsed records, and the worker pool as the
    in-order concatenation of the per-file results. */
module ContentTraining {
  import opened Wrappers
  import opened Collections
  import opened Text
  import opened FastText
  import Taxonomy

  /** The top-level category whose products (music and movies) are skipped. */
  const MusicAndMovies: string := "abcat0600000"

  /** One `<category>` of a product's `<categoryPath>`: the text of its first
      child (the id, possibly absent) and of its second child (the name). */
  datatype PathNode = PathNode(id: Option<string>, name: string)

  /** A `<product>`: its `<name>` text, if any, and its category path, root
      first (an absent `<categoryPath>` is an empty path). */
  datatype Product = Product(name: Option<string>, path: seq<PathNode>)

  /** An extracted (category, name) pair. */
  datatype Example = Example(category: string, name: string)

  /** The hook for cleaning product names; it leaves names unchanged. */
  function TransformName(name: string): (r: string)
    ensures r == name
  {
    name
  }

  /** The product passes the checks before the second path element is read,
      but there is no second element, so indexing it raises. */
  predicate RaisesOnPath(p: Product)
  {
    p.name.Some? && |p.path| == 1 && p.path[0].id == Some(Taxonomy.RootId)
  }

  /** The product contributes a pair: it has a name, a leaf category id, a
      path that starts at the root, and a second element other than music
      and movies. */
  predicate Eligible(p: Product)
  {
    && p.name.Some?
    && |p.path| >= 2
    && p.path[|p.path| - 1].id.Some?
    && p.path[0].id == Some(Taxonomy.RootId)
    && p.path[1].id != Some(MusicAndMovies)
  }

  /** The label of a leaf: its id, or its name with spaces turned into underscores. */
  function LeafLabel(leaf: PathNode, namesAsLabels: bool): string
    requires leaf.id.Some?
  {
    if namesAsLabels then ReplaceChar(leaf.name, ' ', '_') else leaf.id.value
  }

  /** The body of the per-product loop: nothing, a pair, or the index error,
      with the checks evaluated left to right as Python's `and` does. */
  function ExtractProduct(p: Product, namesAsLabels: bool): (r: Result<Option<Example>>)
    ensures r.Err? <==> RaisesOnPath(p)
    ensures r.Ok? && r.value.Some? <==> Eligible(p)
    ensures r.Ok? && r.value.Some? ==>
      && r.value.value.name == ReplaceChar(p.name.value, '\n', ' ')
      && '\n' !in r.value.value.name
      && |r.value.value.name| == |p.name.value|
    ensures r.Ok? && r.value.Some? && !namesAsLabels ==>
      r.value.value.category == p.path[|p.path| - 1].id.value
    ensures r.Ok? && r.value.Some? && namesAsLabels ==>
      && r.value.value.category == ReplaceChar(p.path[|p.path| - 1].name, ' ', '_')
      && ' ' !in r.value.value.category
  {
    if p.name.None? || |p.path| == 0 || p.path[|p.path| - 1].id.None? || p.path[0].id != Some(Taxonomy.RootId) then
      Ok(None)
    else if |p.path| < 2 then
      Err(IndexError)
    else if p.path[1].id == Some(MusicAndMovies) then
      Ok(None)
    else
      var leaf := p.path[|p.path| - 1];
      Ok(Some(Example(LeafLabel(leaf, namesAsLabels), TransformName(ReplaceChar(p.name.value, '\n', ' ')))))
  }

  /** `_label_filename`: the pairs of one file's products, in document order. */
  function LabelFile(products: seq<Product>, namesAsLabels: bool): (r: Result<seq<Example>>)
    ensures r.Err? <==> exists i :: 0 <= i < |products| && RaisesOnPath(products[i])
    ensures r.Ok? ==> |r.value| <= |products|
    ensures r.Ok? ==> forall i :: 0 <= i < |products| && Eligible(products[i]) ==>
      ExtractProduct(products[i], namesAsLabels).value.value in r.value
    decreases |products|
  {
    if |products| == 0 then Ok([])
    else
      assert forall i :: 0 <= i < |products| - 1 ==> products[1..][i] == products[i + 1];
      match ExtractProduct(products[0], namesAsLabels)
      case Err(e) => Err(e)
      case Ok(found) =>
        match LabelFile(products[1..], namesAsLabels)
        case Err(e) => Err(e)
        case Ok(rest) => Ok((if found.Some? then [found.value] else []) + rest)
  }

  /** Every pair of a file comes from an eligible product of that file. */
  lemma {:induction false} LabelFileSound(products: seq<Product>, namesAsLabels: bool, j: int)
    requires LabelFile(products, namesAsLabels).Ok?
    requires 0 <= j < |LabelFile(products, namesAsLabels).value|
    ensures exists i :: (0 <= i < |products| && Eligible(products[i])
                         && ExtractProduct(products[i], namesAsLabels) == Ok(Some(LabelFile(products, namesAsLabels).value[j])))
    decreases |products|
  {
    var all := LabelFile(products, namesAsLabels).value;
    var found := ExtractProduct(products[0], namesAsLabels).value;
    var rest := LabelFile(products[1..], namesAsLabels).value;
    if found.Some? && j == 0 {
      assert all[0] == found.value;
    } else {
      var j' := if found.Some? then j - 1 else j;
      assert all[j] == rest[j'];
      LabelFileSound(products[1..], namesAsLabels, j');
      var i :| 0 <= i < |products[1..]| && Eligible(products[1..][i])
        && ExtractProduct(products[1..][i], namesAsLabels) == Ok(Some(rest[j']));
      assert products[1..][i] == products[i + 1];
    }
  }

  /** Pairs keep the products' document order: labelling two runs of
      products is labelling each, and an error in either is an error. */
  lemma {:induction false} LabelFileAppend(a: seq<Product>, b: seq<Product>, namesAsLabels: bool)
    ensures LabelFile(a + b, namesAsLabels).Ok? <==> LabelFile(a, namesAsLabels).Ok? && LabelFile(b, namesAsLabels).Ok?
    ensures LabelFile(a + b, namesAsLabels).Ok? ==>
      LabelFile(a + b, namesAsLabels).value == LabelFile(a, namesAsLabels).value + LabelFile(b, namesAsLabels).value
    decreases |a|
  {
    if |a| > 0 {
      assert (a + b)[1..] == a[1..] + b;
      assert (a + b)[0] == a[0];
      LabelFileAppend(a[1..], b, namesAsLabels);
    } else {
      assert a + b == b;
    }
  }

  /** The worker pool's results in file order, concatenated; an error in any
      file aborts the run. */
  function CollectLabels(files: seq<seq<Product>>, namesAsLabels: bool): (r: Result<seq<Example>>)
    ensures r.Err? <==> exists f :: 0 <= f < |files| && LabelFile(files[f], namesAsLabels).Err?
    ensures r.Ok? ==> forall f, i :: 0 <= f < |files| && 0 <= i < |files[f]| && Eligible(files[f][i]) ==>
      ExtractProduct(files[f][i], namesAsLabels).value.value in r.value
    decreases |files|
  {
    if |files| == 0 then Ok([])
    else
      assert forall f :: 0 <= f < |files| - 1 ==> files[1..][f] == files[f + 1];
      match LabelFile(files[0], namesAsLabels)
      case Err(e) => Err(e)
      case Ok(first) =>
        match CollectLabels(files[1..], namesAsLabels)
        case Err(e) => Err(e)
        case Ok(rest) => Ok(first + rest)
  }

  /** A single file contributes exactly its own pairs, in document order. */
  lemma CollectLabelsOne(products: seq<Product>, namesAsLabels: bool)
    ensures CollectLabels([products], namesAsLabels) == LabelFile(products, namesAsLabels)
  {
    assert [products][1..] == [];
    if LabelFile(products, namesAsLabels).Ok? {
      assert LabelFile(products, namesAsLabels).value + [] == LabelFile(products, namesAsLabels).value;
    }
  }

  /** Every collected pair comes from an eligible product of one of the files. */
  lemma {:induction false} CollectLabelsSound(files: seq<seq<Product>>, namesAsLabels: bool, j: int)
    requires CollectLabels(files, namesAsLabels).Ok?
    requires 0 <= j < |CollectLabels(files, namesAsLabels).value|
    ensures exists f, i :: (0 <= f < |files| && 0 <= i < |files[f]| && Eligible(files[f][i])
                            && ExtractProduct(files[f][i], namesAsLabels) == Ok(Some(CollectLabels(files, namesAsLabels).value[j])))
    decreases |files|
  {
    var all := CollectLabels(files, namesAsLabels).value;
    var first := LabelFile(files[0], namesAsLabels).value;
    var rest := CollectLabels(files[1..], namesAsLabels).value;
    assert all == first + rest;
    if j < |first| {
      assert all[j] == first[j];
      LabelFileSound(files[0], namesAsLabels, j);
    } else {
      assert all[j] == rest[j - |first|];
      CollectLabelsSound(files[1..], namesAsLabels, j - |first|);
      var f, i :| 0 <= f < |files[1..]| && 0 <= i < |files[1..][f]| && Eligible(files[1..][f][i])
        && ExtractProduct(files[1..][f][i], namesAsLabels) == Ok(Some(rest[j - |first|]));
      assert files[1..][f] == files[f + 1];
    }
  }

  /** Files keep their order in the output: collecting two runs of files is
      collecting each. */
  lemma {:induction false} CollectLabelsAppend(a: seq<seq<Product>>, b: seq<seq<Product>>, namesAsLabels: bool)
    ensures CollectLabels(a + b, namesAsLabels).Ok? <==> CollectLabels(a, namesAsLabels).Ok? && CollectLabels(b, namesAsLabels).Ok?
    ensures CollectLabels(a + b, namesAsLabels).Ok? ==>
      CollectLabels(a + b, namesAsLabels).value == CollectLabels(a, namesAsLabels).value + CollectLabels(b, namesAsLabels).value
    decreases |a|
  {
    if |a| > 0 {
      assert (a + b)[1..] == a[1..] + b;
      assert (a + b)[0] == a[0];
      CollectLabelsAppend(a[1..], b, namesAsLabels);
    } else {
      assert a + b == b;
    }
  }

  function CategoryKey(e: Example): Option<string>
  {
    Some(e.category)
  }

  /** The writing test: a positive threshold that the pair's category reaches
      over all pairs of all files. */
  predicate Written(all: seq<Example>, minProducts: int, e: Example)
  {
    minProducts > 0 && Count(all, CategoryKey, e.category) >= minProducts
  }

  /** The writing pass over `pending`, judged against the counts over `all`. */
  function WriteLines(all: seq<Example>, pending: seq<Example>, minProducts: int): (lines: seq<string>)
    ensures |lines| <= |pending|
    ensures minProducts <= 0 ==> lines == []
    ensures forall i :: 0 <= i < |pending| && Written(all, minProducts, pending[i]) ==>
      Line(pending[i].category, pending[i].name) in lines
    decreases |pending|
  {
    if |pending| == 0 then []
    else
      assert forall i :: 0 <= i < |pending| - 1 ==> pending[1..][i] == pending[i + 1];
      var e := pending[0];
      (if Written(all, minProducts, e) then [Line(e.category, e.name)] else []) + WriteLines(all, pending[1..], minProducts)
  }

  /** Every written line is the line of a pair whose category reaches the threshold. */
  lemma {:induction false} WriteLinesSound(all: seq<Example>, pending: seq<Example>, minProducts: int, j: int)
    requires 0 <= j < |WriteLines(all, pending, minProducts)|
    ensures exists i :: (0 <= i < |pending| && Written(all, minProducts, pending[i])
                         && WriteLines(all, pending, minProducts)[j] == Line(pending[i].category, pending[i].name))
    decreases |pending|
  {
    var lines := WriteLines(all, pending, minProducts);
    var rest := WriteLines(all, pending[1..], minProducts);
    var hit := Written(all, minProducts, pending[0]);
    if hit && j == 0 {
      assert lines[0] == Line(pending[0].category, pending[0].name);
    } else {
      var j' := if hit then j - 1 else j;
      assert lines[j] == rest[j'];
      WriteLinesSound(all, pending[1..], minProducts, j');
      var i :| 0 <= i < |pending[1..]| && Written(all, minProducts, pending[1..][i])
        && rest[j'] == Line(pending[1..][i].category, pending[1..][i].name);
      assert pending[1..][i] == pending[i + 1];
    }
  }

  /** Each pending pair is judged on its own: writing two runs of pairs is
      writing each, so every qualifying pair yields its own line, duplicates
      included, in the order of the pairs. */
  lemma {:induction false} WriteLinesAppend(all: seq<Example>, a: seq<Example>, b: seq<Example>, minProducts: int)
    ensures WriteLines(all, a + b, minProducts) == WriteLines(all, a, minProducts) + WriteLines(all, b, minProducts)
    decreases |a|
  {
    if |a| > 0 {
      assert (a + b)[1..] == a[1..] + b;
      assert (a + b)[0] == a[0];
      WriteLinesAppend(all, a[1..], b, minProducts);
    } else {
      assert a + b == b;
    }
  }

  /** A single pair is written as exactly one line when it qualifies, and not at all otherwise. */
  lemma WriteLinesOne(all: seq<Example>, e: Example, minProducts: int)
    ensures WriteLines(all, [e], minProducts) == if Written(all, minProducts, e) then [Line(e.category, e.name)] else []
  {
    assert [e][1..] == [];
  }

  /** One step of the writing pass: the pair at `i` is judged, then the rest. */
  lemma WriteLinesFrom(all: seq<Example>, i: int, minProducts: int)
    requires 0 <= i < |all|
    ensures WriteLines(all, all[i..], minProducts) ==
      (if Written(all, minProducts, all[i]) then [Line(all[i].category, all[i].name)] else []) + WriteLines(all, all[i + 1..], minProducts)
  {
    assert all[i..][0] == all[i] && all[i..][1..] == all[i + 1..];
  }

  /** The whole script: the lines written, or the error that aborts the run.
      With `min_products` zero (the default) nothing at all is written. */
  function TrainingLines(files: seq<seq<Product>>, namesAsLabels: bool, minProducts: int): (r: Result<seq<string>>)
    ensures r.Err? <==> exists f :: 0 <= f < |files| && LabelFile(files[f], namesAsLabels).Err?
    ensures r.Ok? && minProducts <= 0 ==> r.value == []
    ensures r.Ok? ==> forall e :: (e in CollectLabels(files, namesAsLabels).value
                                   && Written(CollectLabels(files, namesAsLabels).value, minProducts, e))
                                  ==> Line(e.category, e.name) in r.value
  {
    match CollectLabels(files, namesAsLabels)
    case Err(e) => Err(e)
    case Ok(all) => Ok(WriteLines(all, all, minProducts))
  }

  /** Every written line is `__label__<category> <name>` for the pair of an
      eligible product whose category has at least `min_products` pairs over
      all files (`TrainingLines` states the converse). */
  lemma TrainingLinesSound(files: seq<seq<Product>>, namesAsLabels: bool, minProducts: int, j: int)
    requires TrainingLines(files, namesAsLabels, minProducts).Ok?
    requires 0 <= j < |TrainingLines(files, namesAsLabels, minProducts).value|
    ensures var all := CollectLabels(files, namesAsLabels).value;
      exists e :: (e in all && Written(all, minProducts, e)
                   && TrainingLines(files, namesAsLabels, minProducts).value[j] == Line(e.category, e.name)
                   && exists f, i :: 0 <= f < |files| && 0 <= i < |files[f]| && Eligible(files[f][i])
                                     && ExtractProduct(files[f][i], namesAsLabels) == Ok(Some(e)))
  {
    var all := CollectLabels(files, namesAsLabels).value;
    WriteLinesSound(all, all, minProducts, j);
    var k :| 0 <= k < |all| && Written(all, minProducts, all[k])
      && WriteLines(all, all, minProducts)[j] == Line(all[k].category, all[k].name);
    CollectLabelsSound(files, namesAsLabels, k);
  }

  /** The output follows the files: the lines of two runs of files are the
      lines of the first run's pairs followed by those of the second's, each
      pair judged against the counts over all files. */
  lemma TrainingLinesByFiles(a: seq<seq<Product>>, b: seq<seq<Product>>, namesAsLabels: bool, minProducts: int)
    ensures TrainingLines(a + b, namesAsLabels, minProducts).Ok? <==>
      CollectLabels(a, namesAsLabels).Ok? && CollectLabels(b, namesAsLabels).Ok?
    ensures TrainingLines(a + b, namesAsLabels, minProducts).Ok? ==>
      var all := CollectLabels(a + b, namesAsLabels).value;
      TrainingLines(a + b, namesAsLabels, minProducts).value ==
        WriteLines(all, CollectLabels(a, namesAsLabels).value, minProducts) + WriteLines(all, CollectLabels(b, namesAsLabels).value, minProducts)
  {
    CollectLabelsAppend(a, b, namesAsLabels);
    if CollectLabels(a + b, namesAsLabels).Ok? {
      var all := CollectLabels(a + b, namesAsLabels).value;
      WriteLinesAppend(all, CollectLabels(a, namesAsLabels).value, CollectLabels(b, namesAsLabels).value, minProducts);
    }
  }

  /** A pair's entry in `num_products` decides the writing test. */
  lemma CountsDecideWritten(all: seq<Example>, counts: map<string, nat>, minProducts: int, i: int)
    requires 0 <= i < |all| && minProducts > 0
    requires forall c :: c in counts <==> Count(all, CategoryKey, c) > 0
    requires forall c :: c in counts ==> counts[c] == Count(all, CategoryKey, c)
    ensures all[i].category in counts
    ensures counts[all[i].category] >= minProducts <==> Written(all, minProducts, all[i])
  {
    CountPositive(all, CategoryKey, all[i].category);
    assert CategoryKey(all[i]) == Some(all[i].category);
  }

  /** One turn of the writing loop: the test on `num_products` decides the
      pair at `i`, and the rest of the pass follows. */
  lemma WritePassStep(all: seq<Example>, numProducts: map<string, nat>, minProducts: int, i: int)
    requires 0 <= i < |all|
    requires minProducts > 0 ==> forall c :: c in numProducts <==> Count(all, CategoryKey, c) > 0
    requires minProducts > 0 ==> forall c :: c in numProducts ==> numProducts[c] == Count(all, CategoryKey, c)
    ensures minProducts > 0 ==> all[i].category in numProducts
    ensures WriteLines(all, all[i..], minProducts) ==
      (if minProducts > 0 && numProducts[all[i].category] >= minProducts then [Line(all[i].category, all[i].name)] else [])
      + WriteLines(all, all[i + 1..], minProducts)
  {
    WriteLinesFrom(all, i, minProducts);
    if minProducts > 0 {
      CountsDecideWritten(all, numProducts, minProducts, i);
    }
  }

  /** The writing loop over all pairs, given `num_products` when the threshold
      is positive. */
  method WritePass(all: seq<Example>, numProducts: map<string, nat>, minProducts: int) returns (lines: seq<string>)
    requires minProducts > 0 ==> forall c :: c in numProducts <==> Count(all, CategoryKey, c) > 0
    requires minProducts > 0 ==> forall c :: c in numProducts ==> numProducts[c] == Count(all, CategoryKey, c)
    ensures lines == WriteLines(all, all, minProducts)
  {
    lines := [];
    var i := 0;
    assert all[0..] == all;
    while i < |all|
      invariant 0 <= i <= |all|
      invariant lines + WriteLines(all, all[i..], minProducts) == WriteLines(all, all, minProducts)
    {
      var e := all[i];
      WritePassStep(all, numProducts, minProducts, i);
      var line: seq<string> := [];
      if minProducts > 0 && numProducts[e.category] >= minProducts {
        line := [Line(e.category, e.name)];
      }
      assert lines + WriteLines(all, all[i..], minProducts) == (lines + line) + WriteLines(all, all[i + 1..], minProducts);
      lines := lines + line;
      i := i + 1;
    }
    assert all[i..] == [];
  }

  /** The `__main__` block: collect, count into `num_products` when the
      threshold is positive, then write each pair whose count reaches it. */
  method WriteTrainingData(files: seq<seq<Product>>, namesAsLabels: bool, minProducts: int) returns (r: Result<seq<string>>)
    ensures r == TrainingLines(files, namesAsLabels, minProducts)
  {
    var collected := CollectLabels(files, namesAsLabels);
    if collected.Err? {
      return Err(collected.error);
    }
    var all := collected.value;
    var numProducts: map<string, nat> := map[];
    if minProducts > 0 {
      numProducts := Tally(all, CategoryKey);
    }
    var lines := WritePass(all, numProducts, minProducts);
    return Ok(lines);
  }
}

=== FILE: cyclic_taxonomy.dfy ===
/** A concrete category file whose parent map has a cycle, which the
    query-labelling script still processes at its default threshold. */
module CyclicTaxonomy {
  import opened Wrappers
  import opened Taxonomy

  /** Two entries that make `a` and `b` each other's parent. */
  function CyclicFile(): seq<CategoryEntry>
  {
    [CategoryEntry(["b", "a"]), CategoryEntry(["a", "b"])]
  }

  lemma TableOfOne(e: CategoryEntry, edge: Edge)
    requires EdgeOf(e) == Ok(Some(edge))
    ensures ParentTable([e]) == Ok([edge])
  {
    assert [e][1..] == [];
    assert ParentTable([e][1..]) == Ok([]);
    assert [edge] + [] == [edge];
  }

  lemma TableOfTwo(e0: CategoryEntry, e1: CategoryEntry, edge0: Edge, edge1: Edge)
    requires EdgeOf(e0) == Ok(Some(edge0))
    requires EdgeOf(e1) == Ok(Some(edge1))
    ensures ParentTable([e0, e1]) == Ok([edge0, edge1])
  {
    TableOfOne(e1, edge1);
    assert [e0, e1][1..] == [e1];
    assert [edge0] + [edge1] == [edge0, edge1];
  }

  lemma MapOfTwo(edge0: Edge, edge1: Edge)
    ensures ToMap([edge0, edge1]) == map[edge0.category := edge0.parent][edge1.category := edge1.parent]
  {
    assert [edge0, edge1][..1] == [edge0];
    assert [edge0][..0] == [];
  }

  lemma CyclicEdges()
    ensures EdgeOf(CyclicFile()[0]) == Ok(Some(Edge("a", "b")))
    ensures EdgeOf(CyclicFile()[1]) == Ok(Some(Edge("b", "a")))
  {
  }

  lemma CyclicTable()
    ensures ParentTable(CyclicFile()) == Ok([Edge("a", "b"), Edge("b", "a")])
  {
    var file := CyclicFile();
    CyclicEdges();
    TableOfTwo(file[0], file[1], Edge("a", "b"), Edge("b", "a"));
    assert file == [file[0], file[1]];
  }

  /** The file parses, and its parent map is the two-cycle. */
  lemma CyclicFileParents()
    ensures BuildParentMap(CyclicFile()) == Ok(map["a" := "b", "b" := "a"])
  {
    CyclicTable();
    MapOfTwo(Edge("a", "b"), Edge("b", "a"));
  }
}

=== FILE: fasttext.dfy ===
/** The line format both scripts write for the fastText classifier:
    `__label__<category> <text>`, one example per line. `ParseLine` reads a
    line back the way a label-file reader does (the label runs up to the
    first space) and serves as the partner that shows the format loses
    nothing when the category holds no space. */
module FastText {
  import opened Wrappers

  const LabelPrefix: string := "__label__"

  /** One output line, without its line terminator. */
  function Line(category: string, text: string): (r: string)
    ensures |r| == |LabelPrefix| + |category| + 1 + |text|
    ensures r[..|LabelPrefix|] == LabelPrefix
    ensures r[|LabelPrefix| + |category|] == ' '
    ensures r[|LabelPrefix| + |category| + 1..] == text
  {
    LabelPrefix + category + " " + text
  }

  /** Index of the first space, if any. */
  function FirstSpace(s: string): (r: Option<nat>)
    ensures r.Some? ==> r.value < |s| && s[r.value] == ' ' && ' ' !in s[..r.value]
    ensures r.None? ==> ' ' !in s
  {
    if |s| == 0 then None
    else if s[0] == ' ' then Some(0)
    else
      match FirstSpace(s[1..])
      case None => None
      case Some(k) => Some(k + 1)
  }

  /** Splits a line into its category and its text. */
  function ParseLine(line: string): Option<(string, string)>
  {
    if |line| < |LabelPrefix| || line[..|LabelPrefix|] != LabelPrefix then None
    else
      var rest := line[|LabelPrefix|..];
      match FirstSpace(rest)
      case None => None
      case Some(k) => Some((rest[..k], rest[k + 1..]))
  }

  lemma {:induction false} FirstSpaceAfterWord(word: string, tail: string)
    requires ' ' !in word
    ensures FirstSpace(word + " " + tail) == Some(|word|)
    decreases |word|
  {
    if |word| > 0 {
      assert (word + " " + tail)[1..] == word[1..] + " " + tail;
      FirstSpaceAfterWord(word[1..], tail);
    }
  }

  /** A line reads back as the category and text it was written from, as
      long as the category has no space in it. */
  lemma LineRoundTrip(category: string, text: string)
    requires ' ' !in category
    ensures ParseLine(Line(category, text)) == Some((category, text))
  {
    var line := Line(category, text);
    var rest := line[|LabelPrefix|..];
    assert rest == category + " " + text;
    FirstSpaceAfterWord(category, text);
    assert rest[..|category|] == category;
  }

  /** Every line that reads back was written by `Line`, with a space-free category. */
  lemma ParseLineSound(line: string, category: string, text: string)
    requires ParseLine(line) == Some((category, text))
    ensures ' ' !in category
    ensures Line(category, text) == line
  {
    var rest := line[|LabelPrefix|..];
    var k := FirstSpace(rest).value;
    assert rest == rest[..k] + " " + rest[k + 1..];
    assert line == line[..|LabelPrefix|] + rest;
  }
}

=== FILE: labeled_queries.dfy ===
/** The query-labelling script end to end: parse the category file into the
    parent map, keep the query rows whose category is a non-root category,
    normalise their text, roll short categories up, drop rows whose final
    category is not a key of the parent map, and format the rest as
    fastText lines. */
module LabeledQueries {
  import opened Wrappers
  import opened Taxonomy
  import opened CategoryRollup
  import opened QueryNormalizer
  import opened FastText
  import CyclicTaxonomy

  /** A row of the training CSV: its category and its raw query text. */
  datatype QueryRow = QueryRow(category: string, query: string)

  /** The loaded row for a CSV row: its category, present, and its normalised text. */
  function Loaded(row: QueryRow, stem: string -> string): Query
  {
    Query(Some(row.category), Normalize(stem, row.query))
  }

  /** The load filter and the normalisation: rows whose category is not a
      key of the parent map are dropped, the others keep their order. */
  function LoadQueries(rows: seq<QueryRow>, pm: ParentMap, stem: string -> string): (r: seq<Query>)
    ensures |r| <= |rows|
    ensures forall j :: 0 <= j < |r| ==> r[j].category.Some? && r[j].category.value in pm
    ensures forall i :: 0 <= i < |rows| && rows[i].category in pm ==> Loaded(rows[i], stem) in r
    decreases |rows|
  {
    if |rows| == 0 then []
    else
      var rest := LoadQueries(rows[1..], pm, stem);
      assert forall i :: 0 <= i < |rows| - 1 ==> rows[1..][i] == rows[i + 1];
      if rows[0].category in pm then [Loaded(rows[0], stem)] + rest else rest
  }

  /** Every loaded row comes from a CSV row whose category is a key. */
  lemma {:induction false} LoadQueriesSound(rows: seq<QueryRow>, pm: ParentMap, stem: string -> string, j: int)
    requires 0 <= j < |LoadQueries(rows, pm, stem)|
    ensures exists i :: 0 <= i < |rows| && rows[i].category in pm && LoadQueries(rows, pm, stem)[j] == Loaded(rows[i], stem)
    decreases |rows|
  {
    var all := LoadQueries(rows, pm, stem);
    var rest := LoadQueries(rows[1..], pm, stem);
    assert all == (if rows[0].category in pm then [Loaded(rows[0], stem)] else []) + rest;
    if rows[0].category in pm && j == 0 {
      assert all[0] == Loaded(rows[0], stem);
    } else {
      var j' := if rows[0].category in pm then j - 1 else j;
      assert all[j] == rest[j'];
      LoadQueriesSound(rows[1..], pm, stem, j');
      var i :| 0 <= i < |rows[1..]| && rows[1..][i].category in pm && rest[j'] == Loaded(rows[1..][i], stem);
      assert rows[1..][i] == rows[i + 1];
    }
  }

  /** Loading keeps the rows' order: loading two blocks is loading each. */
  lemma {:induction false} LoadQueriesAppend(a: seq<QueryRow>, b: seq<QueryRow>, pm: ParentMap, stem: string -> string)
    ensures LoadQueries(a + b, pm, stem) == LoadQueries(a, pm, stem) + LoadQueries(b, pm, stem)
    decreases |a|
  {
    if |a| > 0 {
      assert (a + b)[1..] == a[1..] + b;
      LoadQueriesAppend(a[1..], b, pm, stem);
    } else {
      assert a + b == b;
    }
  }

  /** The final filter and the label formatting: a row is written only if its
      category is a key of the parent map (a missing category never is), as
      `__label__<category> <query>`, in row order. */
  function Emit(qs: seq<Query>, pm: ParentMap): (lines: seq<string>)
    ensures |lines| <= |qs|
    ensures forall i :: 0 <= i < |qs| && qs[i].category.Some? && qs[i].category.value in pm ==>
      Line(qs[i].category.value, qs[i].query) in lines
    decreases |qs|
  {
    if |qs| == 0 then []
    else
      var rest := Emit(qs[1..], pm);
      assert forall i :: 0 <= i < |qs| - 1 ==> qs[1..][i] == qs[i + 1];
      var q := qs[0];
      if q.category.Some? && q.category.value in pm then [Line(q.category.value, q.query)] + rest else rest
  }

  /** Every written line is the line of a row whose category is a key. */
  lemma {:induction false} EmitSound(qs: seq<Query>, pm: ParentMap, j: int)
    requires 0 <= j < |Emit(qs, pm)|
    ensures exists i :: (0 <= i < |qs| && qs[i].category.Some? && qs[i].category.value in pm
                         && Emit(qs, pm)[j] == Line(qs[i].category.value, qs[i].query))
    decreases |qs|
  {
    var rest := Emit(qs[1..], pm);
    var kept := qs[0].category.Some? && qs[0].category.value in pm;
    if kept && j == 0 {
      assert Emit(qs, pm)[0] == Line(qs[0].category.value, qs[0].query);
    } else {
      var j' := if kept then j - 1 else j;
      assert Emit(qs, pm)[j] == rest[j'];
      EmitSound(qs[1..], pm, j');
      var i :| 0 <= i < |qs[1..]| && qs[1..][i].category.Some? && qs[1..][i].category.value in pm
        && rest[j'] == Line(qs[1..][i].category.value, qs[1..][i].query);
      assert qs[1..][i] == qs[i + 1];
    }
  }

  /** Emitting keeps the rows' order: emitting two blocks is emitting each. */
  lemma {:induction false} EmitAppend(a: seq<Query>, b: seq<Query>, pm: ParentMap)
    ensures Emit(a + b, pm) == Emit(a, pm) + Emit(b, pm)
    decreases |a|
  {
    if |a| > 0 {
      assert (a + b)[1..] == a[1..] + b;
      EmitAppend(a[1..], b, pm);
    } else {
      assert a + b == b;
    }
  }

  /** Rows whose categories are all keys are all emitted, one line each. */
  lemma {:induction false} EmitKeepsKnownRows(qs: seq<Query>, pm: ParentMap)
    requires forall i :: 0 <= i < |qs| ==> qs[i].category.Some? && qs[i].category.value in pm
    ensures |Emit(qs, pm)| == |qs|
    decreases |qs|
  {
    if |qs| > 0 {
      assert forall i :: 0 <= i < |qs| - 1 ==> qs[1..][i] == qs[i + 1];
      EmitKeepsKnownRows(qs[1..], pm);
    }
  }

  /** After a rollup with a threshold above one, every written line belongs
      to a category that ended with at least the threshold number of rows. */
  lemma EmittedCategoriesAreSupported(qs: seq<Query>, pm: ParentMap, minQueries: int, j: int)
    requires Acyclic(pm) && minQueries > 1
    requires 0 <= j < |Emit(Rollup(qs, pm, minQueries), pm)|
    ensures var rolled := Rollup(qs, pm, minQueries);
      exists i :: 0 <= i < |rolled| && rolled[i].category.Some? && rolled[i].category.value in pm
        && Size(rolled, rolled[i].category.value) >= minQueries
        && Emit(rolled, pm)[j] == Line(rolled[i].category.value, qs[i].query)
  {
    var rolled := Rollup(qs, pm, minQueries);
    EmitSound(rolled, pm, j);
    var i :| 0 <= i < |rolled| && rolled[i].category.Some? && rolled[i].category.value in pm
      && Emit(rolled, pm)[j] == Line(rolled[i].category.value, rolled[i].query);
    assert rolled[i].query == qs[i].query;
  }

  /** The category file yields an acyclic parent map whenever the rollup
      loop runs at all, which is what makes the loop end; with a threshold of
      at most one the loop is skipped and any parent map will do. */
  predicate AcyclicParents(entries: seq<CategoryEntry>, minQueries: int)
  {
    minQueries > 1 && BuildParentMap(entries).Ok? ==> Acyclic(BuildParentMap(entries).value)
  }

  /** The whole script: the output lines, or the error that ends the run. A
      malformed category path raises while parsing. When the rollup leaves
      every loaded row missing, the relabelling `apply` yields only NaN, pandas
      stores the column as floats, and adding the label prefix raises. */
  function LabelQueries(entries: seq<CategoryEntry>, rows: seq<QueryRow>, minQueries: int, stem: string -> string): (r: Result<seq<string>>)
    requires AcyclicParents(entries, minQueries)
    ensures r == Err(IndexError) <==> exists i :: 0 <= i < |entries| && Malformed(entries[i])
    ensures r.Err? ==> r == Err(IndexError) || r == Err(TypeError)
    ensures r == Err(TypeError) ==> minQueries > 1 && |rows| > 0
    ensures r.Ok? ==> |r.value| <= |rows|
  {
    match BuildParentMap(entries)
    case Err(e) => Err(e)
    case Ok(pm) =>
      var loaded := LoadQueries(rows, pm, stem);
      var rolled := Rollup(loaded, pm, minQueries);
      assert |loaded| > 0 ==> loaded[0].category.Some?;
      if AllMissing(rolled) then Err(TypeError) else Ok(Emit(rolled, pm))
  }

  /** A threshold above the number of loaded rows ends the run with the type
      error: every row rolls past the root, so nothing is ever written. */
  lemma ThresholdAboveRowCountRaises(entries: seq<CategoryEntry>, rows: seq<QueryRow>, minQueries: int, stem: string -> string)
    requires AcyclicParents(entries, minQueries)
    ensures BuildParentMap(entries).Ok? && 0 < |LoadQueries(rows, BuildParentMap(entries).value, stem)| < minQueries ==>
      LabelQueries(entries, rows, minQueries, stem) == Err(TypeError)
  {
    if BuildParentMap(entries).Ok? {
      var pm := BuildParentMap(entries).value;
      var loaded := LoadQueries(rows, pm, stem);
      if 0 < |loaded| < minQueries {
        ShortTableRollsAway(loaded, pm, minQueries);
      }
    }
  }

  /** With a threshold of at most one nothing is rolled up: every row whose
      category is a non-root category of the file becomes exactly one line. */
  lemma NoRollupKeepsEveryKnownRow(entries: seq<CategoryEntry>, rows: seq<QueryRow>, minQueries: int, stem: string -> string)
    requires minQueries <= 1
    ensures BuildParentMap(entries).Ok? ==>
      var pm := BuildParentMap(entries).value;
      && LabelQueries(entries, rows, minQueries, stem) == Ok(Emit(LoadQueries(rows, pm, stem), pm))
      && |LabelQueries(entries, rows, minQueries, stem).value| == |LoadQueries(rows, pm, stem)|
  {
    if BuildParentMap(entries).Ok? {
      var pm := BuildParentMap(entries).value;
      EmitKeepsKnownRows(LoadQueries(rows, pm, stem), pm);
    }
  }

  /** A category file whose parents form a cycle is still processed at the
      default threshold: the loop is never entered and every row with a known
      category is written. */
  lemma CyclicFileAtDefaultThreshold(rows: seq<QueryRow>, stem: string -> string)
    ensures var pm := map["a" := "b", "b" := "a"];
      && BuildParentMap(CyclicTaxonomy.CyclicFile()) == Ok(pm)
      && !Acyclic(pm)
      && LabelQueries(CyclicTaxonomy.CyclicFile(), rows, 1, stem) == Ok(Emit(LoadQueries(rows, pm, stem), pm))
      && |LabelQueries(CyclicTaxonomy.CyclicFile(), rows, 1, stem).value| == |LoadQueries(rows, pm, stem)|
  {
    CyclicTaxonomy.CyclicFileParents();
    CyclicMapNeverConverges();
    NoRollupKeepsEveryKnownRow(CyclicTaxonomy.CyclicFile(), rows, 1, stem);
  }
}

=== FILE: normalizer.dfy ===
/** The query normaliser of the query-labelling script: lowercase, replace
    every character outside `[a-z0-9]` by a space, collapse whitespace runs,
    split on single spaces, stem every piece and join the pieces again.
    The stemmer is a parameter; the model asks of it only what each lemma
    states. */
module QueryNormalizer {
  import opened Text

  /** The text before stemming: lowercased, cleaned and collapsed. */
  function Canonical(query: string): (r: string)
    ensures InAlphabet(r)
    ensures NoDoubleSpace(r)
  {
    var cleaned := Clean(Lower(query));
    CollapseKeepsAlphabet(cleaned, false);
    Collapse(cleaned)
  }

  function StemAll(stem: string -> string, tokens: seq<string>): seq<string>
  {
    seq(|tokens|, i requires 0 <= i < |tokens| => stem(tokens[i]))
  }

  /** `normalize_query`: stem every space-separated piece of the canonical
      text. With a stemmer that keeps space-free tokens space-free, the pieces
      of the result are exactly the stems of the pieces of the canonical text,
      one for one: an empty piece coming from a leading or trailing space is
      stemmed and kept, never dropped. */
  function Normalize(stem: string -> string, query: string): (r: string)
    ensures KeepsTokens(stem) ==> Split(r) == StemAll(stem, Split(Canonical(query)))
    ensures KeepsTokens(stem) ==> |Split(r)| == |Split(Canonical(query))|
  {
    Join(StemAll(stem, Split(Canonical(query))))
  }

  /** The stand-in for a stemmer that leaves every token as it is. */
  function Identity(token: string): string
  {
    token
  }

  /** A stemmer that never puts a space into a space-free token. */
  ghost predicate KeepsTokens(stem: string -> string)
  {
    forall t :: ' ' !in t ==> ' ' !in stem(t)
  }

  /** A stemmer that maps `[a-z0-9]` tokens to `[a-z0-9]` tokens, stems only
      the empty token to the empty token, and leaves its own stems alone. */
  ghost predicate SettledStemmer(stem: string -> string)
  {
    forall t :: AlnumOnly(t) ==> AlnumOnly(stem(t)) && stem(stem(t)) == stem(t) && (stem(t) == "" <==> t == "")
  }

  lemma AlnumHasNoSpace(t: string)
    requires AlnumOnly(t)
    ensures ' ' !in t
  {
  }

  /** The canonical texts are exactly the strings over `[a-z0-9 ]` without
      two spaces in a row; in particular the steps before stemming are idempotent. */
  lemma CanonicalFixedPoints(s: string)
    ensures Canonical(s) == s <==> InAlphabet(s) && NoDoubleSpace(s)
  {
    if InAlphabet(s) && NoDoubleSpace(s) {
      LowerFixedPoints(s);
      CleanFixedPoints(s);
      CollapseFixedPoints(s);
    }
  }

  /** With a stemmer that keeps `[a-z0-9]` tokens in `[a-z0-9]`, a normalised
      query only holds characters from `[a-z0-9 ]`. */
  lemma NormalizeInAlphabet(stem: string -> string, query: string)
    requires forall t :: AlnumOnly(t) ==> AlnumOnly(stem(t))
    ensures InAlphabet(Normalize(stem, query))
  {
    var c := Canonical(query);
    SplitAlnum(c);
    JoinInAlphabet(StemAll(stem, Split(c)));
  }

  /** Normalising twice is normalising once, for any settled stemmer. */
  lemma NormalizeIdempotent(stem: string -> string, query: string)
    requires SettledStemmer(stem)
    ensures Normalize(stem, Normalize(stem, query)) == Normalize(stem, query)
  {
    var c := Canonical(query);
    var tokens := Split(c);
    var stems := StemAll(stem, tokens);
    var n := Join(stems);
    SplitAlnum(c);
    JoinSplit(c);
    NoDoubleSpaceJoin(tokens);
    forall i | 0 <= i < |stems| ensures AlnumOnly(stems[i]) && ' ' !in stems[i] {
      AlnumHasNoSpace(stems[i]);
    }
    assert InnerPiecesNonEmpty(stems) by {
      forall i | 0 < i < |stems| - 1 ensures stems[i] != "" {
        assert tokens[i] != "";
      }
    }
    NoDoubleSpaceJoin(stems);
    JoinInAlphabet(stems);
    CanonicalFixedPoints(n);
    assert StemAll(stem, stems) == stems;
  }

  /** With the identity stemmer the normaliser is idempotent. */
  lemma NormalizeIdentityIdempotent(query: string)
    ensures Normalize(Identity, Normalize(Identity, query)) == Normalize(Identity, query)
  {
    NormalizeIdempotent(Identity, query);
  }
}

=== FILE: rollup.dfy ===
/** The rollup loop of the query-labelling script: while some category has
    fewer than `min_queries` rows, every row of every such category moves to
    that category's parent. The parent comes from a left merge with the
    parents table, so a category that is not a key (in practice the root)
    turns into a missing value, and a missing category is never counted
    and never moves again. */
module CategoryRollup {
  import opened Wrappers
  import opened Collections
  import opened Taxonomy

  /** A row of the queries frame: its category (missing once it has been
      rolled past the root) and its query text. */
  datatype Query = Query(category: Option<string>, query: string)

  function CategoryOf(q: Query): Option<string>
  {
    q.category
  }

  /** The group size of `c` in `groupby('category').size()`; rows with a
      missing category belong to no group. */
  function Size(qs: seq<Query>, c: string): nat
  {
    Count(qs, CategoryOf, c)
  }

  /** Every category present has at least `minQueries` rows: the loop's exit test. */
  predicate Converged(qs: seq<Query>, minQueries: int)
  {
    forall i :: 0 <= i < |qs| && qs[i].category.Some? ==> Size(qs, qs[i].category.value) >= minQueries
  }

  /** The row-wise choice between the current category and the merged parent:
      a missing category is kept (its `has_min_queries` is NaN, which is true). */
  function Relabel(qs: seq<Query>, pm: ParentMap, minQueries: int, q: Query): (r: Query)
    ensures r.query == q.query
    ensures q.category.None? ==> r == q
    ensures q.category.Some? && Size(qs, q.category.value) >= minQueries ==> r == q
    ensures q.category.Some? && Size(qs, q.category.value) < minQueries ==> r.category == ParentOf(pm, q.category.value)
  {
    match q.category
    case None => q
    case Some(c) => if Size(qs, c) >= minQueries then q else q.(category := ParentOf(pm, c))
  }

  /** On an acyclic map a relabelled row moves strictly closer to the root. */
  lemma RelabelShallower(qs: seq<Query>, pm: ParentMap, minQueries: int, q: Query)
    requires Acyclic(pm)
    ensures q.category.Some? && Size(qs, q.category.value) < minQueries ==>
      OptionDepth(pm, Relabel(qs, pm, minQueries, q).category) < OptionDepth(pm, q.category)
  {
    if q.category.Some? {
      ParentIsShallower(pm, q.category.value);
    }
  }

  /** One pass of the loop body, every row judged against the same counts. */
  function Step(qs: seq<Query>, pm: ParentMap, minQueries: int): (r: seq<Query>)
    ensures |r| == |qs|
    ensures forall i :: 0 <= i < |qs| ==> r[i].query == qs[i].query
    ensures forall i :: 0 <= i < |qs| && qs[i].category.None? ==> r[i].category.None?
    ensures forall i :: 0 <= i < |qs| && qs[i].category.Some? && Size(qs, qs[i].category.value) >= minQueries ==>
      r[i] == qs[i]
    ensures forall i :: 0 <= i < |qs| && qs[i].category.Some? && Size(qs, qs[i].category.value) < minQueries ==>
      r[i].category == ParentOf(pm, qs[i].category.value)
  {
    seq(|qs|, i requires 0 <= i < |qs| => Relabel(qs, pm, minQueries, qs[i]))
  }

  /** Total depth of all rows: the measure each pass strictly lowers. */
  function Weight(qs: seq<Query>, pm: ParentMap): nat
  {
    if |qs| == 0 then 0 else Weight(qs[..|qs| - 1], pm) + OptionDepth(pm, qs[|qs| - 1].category)
  }

  lemma {:induction false} WeightPointwise(a: seq<Query>, b: seq<Query>, pm: ParentMap)
    requires |a| == |b|
    requires forall i :: 0 <= i < |a| ==> OptionDepth(pm, b[i].category) <= OptionDepth(pm, a[i].category)
    ensures Weight(b, pm) <= Weight(a, pm)
    ensures (exists i :: 0 <= i < |a| && OptionDepth(pm, b[i].category) < OptionDepth(pm, a[i].category)) ==>
      Weight(b, pm) < Weight(a, pm)
    decreases |a|
  {
    if |a| > 0 {
      var n := |a| - 1;
      assert forall i :: 0 <= i < n ==> a[..n][i] == a[i] && b[..n][i] == b[i];
      WeightPointwise(a[..n], b[..n], pm);
      if exists i :: 0 <= i < |a| && OptionDepth(pm, b[i].category) < OptionDepth(pm, a[i].category) {
        var i :| 0 <= i < |a| && OptionDepth(pm, b[i].category) < OptionDepth(pm, a[i].category);
        if i < n {
          assert OptionDepth(pm, b[..n][i].category) < OptionDepth(pm, a[..n][i].category);
        }
      }
    }
  }

  /** While some category is short of rows, a pass lowers the total depth:
      every row stays or moves one level up, and at least one moves. */
  lemma StepDescends(qs: seq<Query>, pm: ParentMap, minQueries: int)
    requires Acyclic(pm)
    requires !Converged(qs, minQueries)
    ensures Weight(Step(qs, pm, minQueries), pm) < Weight(qs, pm)
  {
    var r := Step(qs, pm, minQueries);
    forall i | 0 <= i < |qs|
      ensures OptionDepth(pm, r[i].category) <= OptionDepth(pm, qs[i].category)
    {
      if qs[i].category.Some? && Size(qs, qs[i].category.value) < minQueries {
        ParentIsShallower(pm, qs[i].category.value);
      }
    }
    var i :| 0 <= i < |qs| && qs[i].category.Some? && Size(qs, qs[i].category.value) < minQueries;
    ParentIsShallower(pm, qs[i].category.value);
    WeightPointwise(qs, r, pm);
  }

  /** The rollup: the `while min_queries > 1` loop, run until no category
      present is short of rows. With a threshold of at most one the loop is
      never entered, whatever the map; above one it ends on every acyclic
      parent map. */
  function Rollup(qs: seq<Query>, pm: ParentMap, minQueries: int): (r: seq<Query>)
    requires minQueries > 1 ==> Acyclic(pm)
    ensures |r| == |qs|
    ensures forall i :: 0 <= i < |qs| ==> r[i].query == qs[i].query
    ensures minQueries <= 1 ==> r == qs
    ensures minQueries > 1 ==> Converged(r, minQueries)
    decreases Weight(qs, pm)
  {
    if minQueries <= 1 || Converged(qs, minQueries) then qs
    else
      StepDescends(qs, pm, minQueries);
      Rollup(Step(qs, pm, minQueries), pm, minQueries)
  }

  /** A pass changes nothing exactly when the loop would stop: a short
      category always moves, since in an acyclic map no category is its own
      parent. */
  lemma StepFixedPoints(qs: seq<Query>, pm: ParentMap, minQueries: int)
    requires Acyclic(pm)
    ensures Step(qs, pm, minQueries) == qs <==> Converged(qs, minQueries)
  {
    var r := Step(qs, pm, minQueries);
    if !Converged(qs, minQueries) {
      var i :| 0 <= i < |qs| && qs[i].category.Some? && Size(qs, qs[i].category.value) < minQueries;
      var c := qs[i].category.value;
      if c in pm {
        NoCategoryIsItsOwnAncestor(pm, c, 1);
        assert Climb(pm, Some(c), 1) == Climb(pm, ParentOf(pm, c), 0);
      }
      assert r[i] != qs[i];
    }
  }

  /** A category with enough rows keeps all of them through a pass and can only gain more. */
  lemma StepKeepsSupported(qs: seq<Query>, pm: ParentMap, minQueries: int, c: string)
    requires Size(qs, c) >= minQueries
    ensures forall i :: 0 <= i < |qs| && qs[i].category == Some(c) ==> Step(qs, pm, minQueries)[i].category == Some(c)
    ensures Size(Step(qs, pm, minQueries), c) >= Size(qs, c)
  {
    var r := Step(qs, pm, minQueries);
    forall i | 0 <= i < |qs| && CategoryOf(qs[i]) == Some(c)
      ensures CategoryOf(r[i]) == Some(c)
    {
    }
    CountMonotone(qs, r, CategoryOf, c);
  }

  /** Rows of a category that already has enough rows are never moved by the rollup. */
  lemma {:induction false} RollupKeepsSupported(qs: seq<Query>, pm: ParentMap, minQueries: int, c: string)
    requires minQueries > 1 ==> Acyclic(pm)
    requires Size(qs, c) >= minQueries
    ensures forall i :: 0 <= i < |qs| && qs[i].category == Some(c) ==> Rollup(qs, pm, minQueries)[i].category == Some(c)
    decreases Weight(qs, pm)
  {
    if !(minQueries <= 1 || Converged(qs, minQueries)) {
      var next := Step(qs, pm, minQueries);
      StepDescends(qs, pm, minQueries);
      StepKeepsSupported(qs, pm, minQueries, c);
      RollupKeepsSupported(next, pm, minQueries, c);
    }
  }

  /** Every row ends on its starting category or on one of its ancestors,
      or missing once it has climbed past the top of the map. */
  lemma {:induction false} RollupClimbs(qs: seq<Query>, pm: ParentMap, minQueries: int, i: int)
    requires minQueries > 1 ==> Acyclic(pm)
    requires 0 <= i < |qs|
    ensures exists k: nat :: Rollup(qs, pm, minQueries)[i].category == Climb(pm, qs[i].category, k)
    decreases Weight(qs, pm)
  {
    if minQueries <= 1 || Converged(qs, minQueries) {
      assert Rollup(qs, pm, minQueries)[i].category == Climb(pm, qs[i].category, 0);
    } else {
      var next := Step(qs, pm, minQueries);
      StepDescends(qs, pm, minQueries);
      RollupClimbs(next, pm, minQueries, i);
      var k: nat :| Rollup(next, pm, minQueries)[i].category == Climb(pm, next[i].category, k);
      var j: nat := if next[i] == qs[i] then 0 else 1;
      assert next[i].category == Climb(pm, qs[i].category, j);
      ClimbCompose(pm, qs[i].category, j, k);
      assert Rollup(qs, pm, minQueries)[i].category == Climb(pm, qs[i].category, j + k);
    }
  }

  /** Every row of a non-empty table is missing: pandas then stores the
      category column as floats. */
  predicate AllMissing(qs: seq<Query>)
  {
    |qs| > 0 && forall i :: 0 <= i < |qs| ==> qs[i].category.None?
  }

  /** A threshold above the number of rows leaves no category standing: every
      category, the root included, is short on every pass, so every row rolls
      past the root and ends missing. */
  lemma ShortTableRollsAway(qs: seq<Query>, pm: ParentMap, minQueries: int)
    requires minQueries > 1 ==> Acyclic(pm)
    requires 0 < |qs| < minQueries
    ensures AllMissing(Rollup(qs, pm, minQueries))
  {
    var r := Rollup(qs, pm, minQueries);
    forall i | 0 <= i < |r|
      ensures r[i].category.None?
    {
      assert r[i].category.Some? ==> Size(r, r[i].category.value) <= |r|;
    }
  }

  /** A row whose category is missing stays missing to the end. */
  lemma RollupKeepsMissing(qs: seq<Query>, pm: ParentMap, minQueries: int, i: int)
    requires minQueries > 1 ==> Acyclic(pm)
    requires 0 <= i < |qs| && qs[i].category.None?
    ensures Rollup(qs, pm, minQueries)[i].category.None?
  {
    RollupClimbs(qs, pm, minQueries, i);
    var k: nat :| Rollup(qs, pm, minQueries)[i].category == Climb(pm, qs[i].category, k);
    MissingStaysMissing(pm, k);
  }

  // ------------------------------------------------------------- the loop as written

  /** The merge-and-apply of one loop pass, reading sizes from the group-by map. */
  method RelabelPass(qs: seq<Query>, sizes: map<string, nat>, pm: ParentMap, minQueries: int) returns (next: seq<Query>)
    requires forall c :: c in sizes <==> Size(qs, c) > 0
    requires forall c :: c in sizes ==> sizes[c] == Size(qs, c)
    ensures next == Step(qs, pm, minQueries)
  {
    next := [];
    var i := 0;
    while i < |qs|
      invariant 0 <= i <= |qs|
      invariant next == Step(qs, pm, minQueries)[..i]
    {
      var q := qs[i];
      match q.category {
        case None =>
        case Some(c) =>
          CountPositive(qs, CategoryOf, c);
          assert CategoryOf(qs[i]) == Some(c);
          if sizes[c] < minQueries {
            q := q.(category := ParentOf(pm, c));
          }
      }
      next := next + [q];
      i := i + 1;
    }
  }

  /** The `while min_queries > 1` loop: count, stop when nothing is short,
      otherwise relabel every short category's rows. */
  method RollupLoop(qs: seq<Query>, pm: ParentMap, minQueries: int) returns (r: seq<Query>)
    requires minQueries > 1 ==> Acyclic(pm)
    ensures r == Rollup(qs, pm, minQueries)
  {
    r := qs;
    while minQueries > 1
      invariant Rollup(r, pm, minQueries) == Rollup(qs, pm, minQueries)
      decreases Weight(r, pm)
    {
      var sizes := Tally(r, CategoryOf);
      var toPrune := set c | c in sizes && sizes[c] < minQueries;
      if |toPrune| == 0 {
        forall i | 0 <= i < |r| && r[i].category.Some?
          ensures Size(r, r[i].category.value) >= minQueries
        {
          var c := r[i].category.value;
          CountPositive(r, CategoryOf, c);
          assert CategoryOf(r[i]) == Some(c);
          assert c !in toPrune;
        }
        assert Converged(r, minQueries);
        break;
      }
      var c :| c in toPrune;
      CountPositive(r, CategoryOf, c);
      var i :| 0 <= i < |r| && CategoryOf(r[i]) == Some(c);
      assert !Converged(r, minQueries);
      var next := RelabelPass(r, sizes, pm, minQueries);
      StepDescends(r, pm, minQueries);
      r := next;
    }
  }

  // ------------------------------------------------------------- why acyclicity is needed

  /** On the same cyclic map the loop can still stop: with rows `a, a, b`
      the lone `b` row moves to `a`, and the next count finds nothing short. */
  lemma CyclicMapCanConverge()
    ensures var pm := map["a" := "b", "b" := "a"];
            var qs := [Query(Some("a"), "x"), Query(Some("a"), "y"), Query(Some("b"), "z")];
            !Converged(qs, 2)
            && Step(qs, pm, 2) == [Query(Some("a"), "x"), Query(Some("a"), "y"), Query(Some("a"), "z")]
            && Converged(Step(qs, pm, 2), 2)
  {
    var pm := map["a" := "b", "b" := "a"];
    var qs := [Query(Some("a"), "x"), Query(Some("a"), "y"), Query(Some("b"), "z")];
    SizeOfThree(qs, "a");
    SizeOfThree(qs, "b");
    var once := Step(qs, pm, 2);
    assert once == [Query(Some("a"), "x"), Query(Some("a"), "y"), Query(Some("a"), "z")];
    SizeOfThree(once, "a");
  }

  /** The group size of a three-row table, row by row. */
  lemma SizeOfThree(qs: seq<Query>, c: string)
    requires |qs| == 3
    ensures Size(qs, c) == (if qs[0].category == Some(c) then 1 else 0)
                         + (if qs[1].category == Some(c) then 1 else 0)
                         + (if qs[2].category == Some(c) then 1 else 0)
  {
    PrefixCount(qs, CategoryOf, c, 1);
    PrefixCount(qs, CategoryOf, c, 2);
    PrefixCount(qs, CategoryOf, c, 3);
    assert qs[..0] == [];
    assert qs[..3] == qs;
  }

  /** On a parent map with a cycle the loop can run forever: a lone row bounces
      between two categories that are each other's parent. */
  lemma CyclicMapNeverConverges()
    ensures var pm := map["a" := "b", "b" := "a"];
            var qs := [Query(Some("a"), "tv")];
            !Acyclic(pm) && !Converged(qs, 2) && !Converged(Step(qs, pm, 2), 2)
            && Step(Step(qs, pm, 2), pm, 2) == qs
  {
    var pm := map["a" := "b", "b" := "a"];
    var qs := [Query(Some("a"), "tv")];
    assert Size(qs, "a") == 1 by {
      assert qs[..0] == [];
    }
    var once := Step(qs, pm, 2);
    assert once == [Query(Some("b"), "tv")];
    assert Size(once, "b") == 1 by {
      assert once[..0] == [];
    }
    assert !LeavesWithin(pm, "a", 2);
  }
}

=== FILE: rollup_example.dfy ===
/** A worked run of the query pipeline's rollup on a three-category tree:
    `A` and `B` hang off the root, `C` hangs off `A`; three rows in `A`, one
    in `B`, two in `C`, threshold two. The lone `B` row moves to the root in
    the first pass; the root, counted like any other category, is then short
    too, and the second pass turns that row's category into a missing value;
    the third count finds nothing short. The final filter drops the missing row. */
module RollupExample {
  import opened Wrappers
  import opened Collections
  import opened Taxonomy
  import opened CategoryRollup
  import opened LabeledQueries
  import FastText

  function ExampleMap(): ParentMap
  {
    map["A" := RootId, "B" := RootId, "C" := "A"]
  }

  function Start(): seq<Query>
  {
    [Query(Some("A"), "x"), Query(Some("A"), "x"), Query(Some("A"), "x"),
     Query(Some("B"), "y"), Query(Some("C"), "z"), Query(Some("C"), "z")]
  }

  function AfterFirstPass(): seq<Query>
  {
    [Query(Some("A"), "x"), Query(Some("A"), "x"), Query(Some("A"), "x"),
     Query(Some(RootId), "y"), Query(Some("C"), "z"), Query(Some("C"), "z")]
  }

  function AfterSecondPass(): seq<Query>
  {
    [Query(Some("A"), "x"), Query(Some("A"), "x"), Query(Some("A"), "x"),
     Query(None, "y"), Query(Some("C"), "z"), Query(Some("C"), "z")]
  }

  function Hit(q: Query, c: string): nat
  {
    if q.category == Some(c) then 1 else 0
  }

  lemma SizeOfSix(q: seq<Query>, c: string)
    requires |q| == 6
    ensures Size(q, c) == Hit(q[0], c) + Hit(q[1], c) + Hit(q[2], c) + Hit(q[3], c) + Hit(q[4], c) + Hit(q[5], c)
  {
    PrefixCount(q, CategoryOf, c, 1);
    PrefixCount(q, CategoryOf, c, 2);
    PrefixCount(q, CategoryOf, c, 3);
    PrefixCount(q, CategoryOf, c, 4);
    PrefixCount(q, CategoryOf, c, 5);
    PrefixCount(q, CategoryOf, c, 6);
    assert q[..0] == [];
    assert q[..6] == q;
  }

  lemma ExampleMapIsAcyclic()
    ensures Acyclic(ExampleMap())
  {
    var pm := ExampleMap();
    assert LeavesWithin(pm, RootId, 0);
    assert LeavesWithin(pm, "A", 1);
    assert LeavesWithin(pm, "C", 2);
  }

  /** First pass: `B` has one row, so that row moves to the root. */
  lemma FirstPass()
    ensures !Converged(Start(), 2)
    ensures Step(Start(), ExampleMap(), 2) == AfterFirstPass()
  {
    var q := Start();
    SizeOfSix(q, "A");
    SizeOfSix(q, "B");
    SizeOfSix(q, "C");
    assert Size(q, q[3].category.value) < 2;
  }

  /** Second pass: the root now has one row and no parent, so the row goes missing. */
  lemma SecondPass()
    ensures !Converged(AfterFirstPass(), 2)
    ensures Step(AfterFirstPass(), ExampleMap(), 2) == AfterSecondPass()
  {
    var q := AfterFirstPass();
    SizeOfSix(q, "A");
    SizeOfSix(q, RootId);
    SizeOfSix(q, "C");
    assert Size(q, q[3].category.value) < 2;
  }

  lemma ThirdCount()
    ensures Converged(AfterSecondPass(), 2)
  {
    var q := AfterSecondPass();
    SizeOfSix(q, "A");
    SizeOfSix(q, "C");
  }

  /** The loop: two passes, then the third count finds nothing short. */
  lemma ExampleRollup()
    ensures Rollup(Start(), ExampleMap(), 2) == AfterSecondPass()
  {
    ExampleMapIsAcyclic();
    FirstPass();
    SecondPass();
    ThirdCount();
    assert Rollup(AfterFirstPass(), ExampleMap(), 2) == AfterSecondPass();
  }

  /** The final filter keeps the five rows of `A` and `C` in order and drops
      the row that rolled past the root. */
  lemma ExampleOutput()
    ensures Emit(AfterSecondPass(), ExampleMap())
      == ["__label__A x", "__label__A x", "__label__A x", "__label__C z", "__label__C z"]
  {
    var pm := ExampleMap();
    var q := AfterSecondPass();
    assert FastText.Line("C", "z") == "__label__C z";
    assert FastText.Line("A", "x") == "__label__A x";
    assert q[5..] == [Query(Some("C"), "z")];
    assert q[5..][1..] == [];
    assert Emit(q[5..], pm) == ["__label__C z"];
    assert q[4..][1..] == q[5..];
    assert Emit(q[4..], pm) == ["__label__C z", "__label__C z"];
    assert q[3..][1..] == q[4..];
    assert Emit(q[3..], pm) == Emit(q[4..], pm);
    assert q[2..][1..] == q[3..];
    assert q[1..][1..] == q[2..];
    assert q[0..][1..] == q[1..];
    assert q[0..] == q;
  }

  /** The whole run: two passes, then the final filter. */
  lemma WorkedExample()
    ensures Acyclic(ExampleMap())
    ensures Rollup(Start(), ExampleMap(), 2) == AfterSecondPass()
    ensures Emit(Rollup(Start(), ExampleMap(), 2), ExampleMap())
      == ["__label__A x", "__label__A x", "__label__A x", "__label__C z", "__label__C z"]
  {
    ExampleMapIsAcyclic();
    ExampleRollup();
    ExampleOutput();
  }
}

=== FILE: taxonomy.dfy ===
/** The category tree of the query-labelling script: the parent map read
    from the category file, its key set (the `categories` list), parent
    lookup with a left-join miss, and the depth that makes the rollup
    terminate. */
module Taxonomy {
  import opened Wrappers

  /** The root category ("Best Buy"); it has no parent. */
  const RootId: string := "cat00000"

  /** One `<category>` element: the ids along its `<path>`, root first, itself last. */
  datatype CategoryEntry = CategoryEntry(path: seq<string>)

  /** One row of the parents table. */
  datatype Edge = Edge(category: string, parent: string)

  type ParentMap = map<string, string>

  function Leaf(e: CategoryEntry): string
    requires |e.path| > 0
  {
    e.path[|e.path| - 1]
  }

  /** An entry on which the parsing loop raises: an empty path (`[-1]` fails)
      or a non-root leaf with no element before it (`[-2]` fails). */
  predicate Malformed(e: CategoryEntry)
  {
    |e.path| == 0 || (Leaf(e) != RootId && |e.path| == 1)
  }

  /** What the parsing loop does with one entry: nothing for the root, the
      edge from the leaf to the id before it otherwise. */
  function EdgeOf(e: CategoryEntry): (r: Result<Option<Edge>>)
    ensures r.Err? <==> Malformed(e)
    ensures r.Err? ==> r.error == IndexError
    ensures r == Ok(None) <==> !Malformed(e) && Leaf(e) == RootId
    ensures r.Ok? && r.value.Some? ==> r.value.value == Edge(Leaf(e), e.path[|e.path| - 2])
    ensures r.Ok? && r.value.Some? ==> r.value.value.category != RootId
  {
    if |e.path| == 0 then Err(IndexError)
    else if Leaf(e) == RootId then Ok(None)
    else if |e.path| < 2 then Err(IndexError)
    else Ok(Some(Edge(Leaf(e), e.path[|e.path| - 2])))
  }

  /** The parents table, entry by entry in file order; the first malformed
      entry aborts the run. */
  function ParentTable(entries: seq<CategoryEntry>): (r: Result<seq<Edge>>)
    ensures r.Err? <==> exists i :: 0 <= i < |entries| && Malformed(entries[i])
    ensures r.Ok? ==> |r.value| <= |entries|
    ensures r.Err? ==> r.error == IndexError
    decreases |entries|
  {
    if |entries| == 0 then Ok([])
    else
      match EdgeOf(entries[0])
      case Err(e) => Err(e)
      case Ok(edge) =>
        match ParentTable(entries[1..])
        case Err(e) => Err(e)
        case Ok(rest) =>
          Ok((if edge.Some? then [edge.value] else []) + rest)
  }

  /** Each row of the table is the edge of some entry, and never starts at the root. */
  lemma {:induction false} ParentTableSound(entries: seq<CategoryEntry>)
    ensures ParentTable(entries).Ok? ==> forall j :: 0 <= j < |ParentTable(entries).value| ==>
      && ParentTable(entries).value[j].category != RootId
      && exists i :: 0 <= i < |entries| && EdgeOf(entries[i]) == Ok(Some(ParentTable(entries).value[j]))
    decreases |entries|
  {
    if |entries| > 0 && ParentTable(entries).Ok? {
      ParentTableSound(entries[1..]);
      EdgesComeFromEntries(entries, EdgeOf(entries[0]).value, ParentTable(entries[1..]).value);
    }
  }

  /** Every entry with a non-root leaf has its row in the table: the leaf and
      the id before it. */
  lemma {:induction false} ParentTableComplete(entries: seq<CategoryEntry>)
    ensures ParentTable(entries).Ok? ==> forall i :: 0 <= i < |entries| && |entries[i].path| >= 2 && Leaf(entries[i]) != RootId ==>
      Edge(Leaf(entries[i]), entries[i].path[|entries[i].path| - 2]) in ParentTable(entries).value
    decreases |entries|
  {
    if |entries| > 0 && ParentTable(entries).Ok? {
      ParentTableComplete(entries[1..]);
      EdgesCoverLeaves(entries, EdgeOf(entries[0]).value, ParentTable(entries[1..]).value);
    }
  }

  /** The step of `ParentTable`'s soundness: each row of the first entry's
      edge and the rest's table comes from some entry. */
  lemma EdgesComeFromEntries(entries: seq<CategoryEntry>, edge: Option<Edge>, rest: seq<Edge>)
    requires |entries| > 0 && EdgeOf(entries[0]) == Ok(edge)
    requires forall j :: 0 <= j < |rest| ==>
      rest[j].category != RootId && exists i :: 0 <= i < |entries[1..]| && EdgeOf(entries[1..][i]) == Ok(Some(rest[j]))
    ensures var t := (if edge.Some? then [edge.value] else []) + rest;
      forall j :: 0 <= j < |t| ==> t[j].category != RootId && exists i :: 0 <= i < |entries| && EdgeOf(entries[i]) == Ok(Some(t[j]))
  {
    var t := (if edge.Some? then [edge.value] else []) + rest;
    forall j | 0 <= j < |t|
      ensures t[j].category != RootId && exists i :: 0 <= i < |entries| && EdgeOf(entries[i]) == Ok(Some(t[j]))
    {
      if edge.Some? && j == 0 {
        assert EdgeOf(entries[0]) == Ok(Some(t[j]));
      } else {
        var k := if edge.Some? then j - 1 else j;
        assert t[j] == rest[k];
        var i :| 0 <= i < |entries[1..]| && EdgeOf(entries[1..][i]) == Ok(Some(rest[k]));
        assert entries[1..][i] == entries[i + 1];
      }
    }
  }

  /** The step of `ParentTable`'s completeness: the first entry's edge and
      the rest's table together cover every non-root leaf. */
  lemma EdgesCoverLeaves(entries: seq<CategoryEntry>, edge: Option<Edge>, rest: seq<Edge>)
    requires |entries| > 0 && EdgeOf(entries[0]) == Ok(edge)
    requires forall i :: 0 <= i < |entries[1..]| && |entries[1..][i].path| >= 2 && Leaf(entries[1..][i]) != RootId ==>
      Edge(Leaf(entries[1..][i]), entries[1..][i].path[|entries[1..][i].path| - 2]) in rest
    ensures forall i :: 0 <= i < |entries| && |entries[i].path| >= 2 && Leaf(entries[i]) != RootId ==>
      Edge(Leaf(entries[i]), entries[i].path[|entries[i].path| - 2]) in (if edge.Some? then [edge.value] else []) + rest
  {
    forall i | 0 <= i < |entries| && |entries[i].path| >= 2 && Leaf(entries[i]) != RootId
      ensures Edge(Leaf(entries[i]), entries[i].path[|entries[i].path| - 2]) in (if edge.Some? then [edge.value] else []) + rest
    {
      if i > 0 {
        assert entries[1..][i - 1] == entries[i];
      }
    }
  }

  /** The parents table as a lookup map. */
  function ToMap(table: seq<Edge>): (m: ParentMap)
    ensures forall c :: c in m <==> exists j :: 0 <= j < |table| && table[j].category == c
    ensures forall c :: c in m ==> Edge(c, m[c]) in table
    decreases |table|
  {
    if |table| == 0 then map[]
    else
      var last := table[|table| - 1];
      var m := ToMap(table[..|table| - 1]);
      assert forall j :: 0 <= j < |table| - 1 ==> table[..|table| - 1][j] == table[j];
      m[last.category := last.parent]
  }

  /** Parses the category file into the parent map; the root is never a key. */
  function BuildParentMap(entries: seq<CategoryEntry>): (r: Result<ParentMap>)
    ensures r.Err? <==> exists i :: 0 <= i < |entries| && Malformed(entries[i])
    ensures r.Ok? ==> RootId !in r.value
    ensures r.Err? ==> r.error == IndexError
  {
    ParentTableSound(entries);
    match ParentTable(entries)
    case Err(e) => Err(e)
    case Ok(table) => Ok(ToMap(table))
  }

  /** In a parsed parent map every key is the leaf of some entry whose path
      has at least two ids, and its parent is the id just before that leaf. */
  lemma ParentIsPreviousOnPath(entries: seq<CategoryEntry>, c: string)
    ensures BuildParentMap(entries).Ok? && c in BuildParentMap(entries).value ==>
      exists i :: (0 <= i < |entries| && |entries[i].path| >= 2 && Leaf(entries[i]) == c
                   && entries[i].path[|entries[i].path| - 2] == BuildParentMap(entries).value[c])
  {
    if BuildParentMap(entries).Ok? && c in BuildParentMap(entries).value {
      var pm := BuildParentMap(entries).value;
      var table := ParentTable(entries).value;
      ParentTableSound(entries);
      var j :| 0 <= j < |table| && table[j] == Edge(c, pm[c]);
      var i :| 0 <= i < |entries| && EdgeOf(entries[i]) == Ok(Some(table[j]));
      assert |entries[i].path| >= 2;
    }
  }

  /** In a well-formed category file every entry whose leaf is not the root
      contributes its leaf as a key. */
  lemma EveryNonRootLeafIsAKey(entries: seq<CategoryEntry>, i: int)
    requires forall k :: 0 <= k < |entries| ==> !Malformed(entries[k])
    requires 0 <= i < |entries| && |entries[i].path| > 0 && Leaf(entries[i]) != RootId
    ensures BuildParentMap(entries).Ok?
    ensures Leaf(entries[i]) in BuildParentMap(entries).value
  {
    var table := ParentTable(entries).value;
    ParentTableComplete(entries);
    var e := Edge(Leaf(entries[i]), entries[i].path[|entries[i].path| - 2]);
    assert e in table;
    var j :| 0 <= j < |table| && table[j] == e;
  }

  // ------------------------------------------------------------- lookup

  /** The parent column after a left merge: the parent of a key, missing (NaN)
      for anything that is not a key, the root included. */
  function ParentOf(pm: ParentMap, c: string): (r: Option<string>)
    ensures r.Some? <==> c in pm
    ensures r.Some? ==> r.value == pm[c]
  {
    if c in pm then Some(pm[c]) else None
  }

  /** The category reached after `k` parent lookups from `c`; missing stays missing. */
  function Climb(pm: ParentMap, c: Option<string>, k: nat): Option<string>
    decreases k
  {
    if k == 0 then c
    else
      match c
      case None => None
      case Some(x) => Climb(pm, ParentOf(pm, x), k - 1)
  }

  lemma {:induction false} ClimbCompose(pm: ParentMap, c: Option<string>, j: nat, k: nat)
    ensures Climb(pm, Climb(pm, c, j), k) == Climb(pm, c, j + k)
    decreases j
  {
    if j > 0 && c.Some? {
      ClimbCompose(pm, ParentOf(pm, c.value), j - 1, k);
    } else if j > 0 {
      MissingStaysMissing(pm, k);
      MissingStaysMissing(pm, j + k);
    }
  }

  lemma MissingStaysMissing(pm: ParentMap, k: nat)
    ensures Climb(pm, None, k) == None
  {
  }

  // ------------------------------------------------------------- depth

  /** Following parents from `c` leaves the map within `fuel` lookups. */
  predicate LeavesWithin(pm: ParentMap, c: string, fuel: nat)
    decreases fuel
  {
    c !in pm || (fuel > 0 && LeavesWithin(pm, pm[c], fuel - 1))
  }

  /** Every chain of parent lookups leaves the map (reaches the root or an id
      outside the tree) within as many steps as the map has keys; this is the
      tree shape the category file is meant to have: no category is its own
      ancestor. */
  predicate Acyclic(pm: ParentMap)
  {
    forall c :: c in pm ==> LeavesWithin(pm, c, |pm|)
  }

  /** Number of ids on the chain from `c` up to the first id outside the map,
      both ends included, looking at most `fuel` steps ahead. */
  function Height(pm: ParentMap, c: string, fuel: nat): (h: nat)
    ensures h >= 1
    decreases fuel
  {
    if c !in pm || fuel == 0 then 1 else 1 + Height(pm, pm[c], fuel - 1)
  }

  function Depth(pm: ParentMap, c: string): nat
  {
    Height(pm, c, |pm|)
  }

  /** Depth of a possibly missing category; missing is depth 0. */
  function OptionDepth(pm: ParentMap, c: Option<string>): nat
  {
    match c
    case None => 0
    case Some(x) => Depth(pm, x)
  }

  lemma {:induction false} LeavesWithinMore(pm: ParentMap, c: string, n: nat, m: nat)
    requires LeavesWithin(pm, c, n) && n <= m
    ensures LeavesWithin(pm, c, m)
    ensures Height(pm, c, m) == Height(pm, c, n)
    decreases n
  {
    if c in pm {
      LeavesWithinMore(pm, pm[c], n - 1, m - 1);
    }
  }

  /** One parent lookup goes exactly one level up: the parent of a key (or
      the missing value, for an id outside the map) is one level shallower. */
  lemma ParentIsShallower(pm: ParentMap, c: string)
    requires Acyclic(pm)
    ensures OptionDepth(pm, ParentOf(pm, c)) + 1 == Depth(pm, c)
  {
    if c in pm {
      var n := |pm|;
      assert LeavesWithin(pm, c, n);
      LeavesWithinMore(pm, pm[c], n - 1, n);
    }
  }

  /** In an acyclic map, climbing from any category reaches missing after at
      most its depth in lookups, and never comes back to where it started. */
  lemma {:induction false} ClimbLeaves(pm: ParentMap, c: Option<string>, k: nat)
    requires Acyclic(pm)
    ensures k >= OptionDepth(pm, c) ==> Climb(pm, c, k) == None
    ensures 0 < k && c.Some? ==> OptionDepth(pm, Climb(pm, c, k)) < OptionDepth(pm, c)
    decreases k
  {
    if k > 0 && c.Some? {
      ParentIsShallower(pm, c.value);
      ClimbLeaves(pm, ParentOf(pm, c.value), k - 1);
    } else if k > 0 {
      MissingStaysMissing(pm, k);
    }
  }

  /** Acyclicity rules out self-ancestry: no category is its own ancestor. */
  lemma NoCategoryIsItsOwnAncestor(pm: ParentMap, c: string, k: nat)
    requires Acyclic(pm) && k > 0
    ensures Climb(pm, Some(c), k) != Some(c)
  {
    ClimbLeaves(pm, Some(c), k);
  }
}

=== FILE: text.dfy ===
/** Character-level string operations behind the query normaliser and the
    product-name scrubbing: ASCII lowercasing, replacing characters outside
    `[a-z0-9]`, collapsing whitespace runs (`re.sub(r'\s+', ' ', s)`), Python's
    `str.split(' ')` and `' '.join`, and `str.replace` of one character. */
module Text {

  predicate IsUpper(c: char) { 'A' <= c <= 'Z' }

  /** The characters the regular expression class `[a-z0-9]` accepts. */
  predicate IsLowerAlnum(c: char) { 'a' <= c <= 'z' || '0' <= c <= '9' }

  /** Whitespace for `\s`: space, tab, newline, vertical tab, form feed and
      carriage return. Python's `\s` also matches `\x1c` to `\x1f`, which
      cleaning has already turned into spaces. */
  predicate IsWhitespace(c: char) { c == ' ' || '\t' <= c <= '\r' }

  /** Every character is in `[a-z0-9]`: a token of a normalised query. */
  predicate AlnumOnly(s: string) { forall i :: 0 <= i < |s| ==> IsLowerAlnum(s[i]) }

  /** Every character is in `[a-z0-9 ]`. */
  predicate InAlphabet(s: string) { forall i :: 0 <= i < |s| ==> IsLowerAlnum(s[i]) || s[i] == ' ' }

  predicate NoDoubleSpace(s: string) { forall i :: 0 < i < |s| ==> !(s[i - 1] == ' ' && s[i] == ' ') }

  /** The only whitespace character present, if any, is the plain space. */
  predicate SpacesOnly(s: string) { forall i :: 0 <= i < |s| && IsWhitespace(s[i]) ==> s[i] == ' ' }

  // ---------------------------------------------------------------- lowercase

  function LowerChar(c: char): char
  {
    if IsUpper(c) then (c as int - 'A' as int + 'a' as int) as char else c
  }

  /** `str.lower()` restricted to ASCII: upper-case letters become lower-case,
      everything else is left in place. */
  function Lower(s: string): (r: string)
    ensures |r| == |s|
    ensures forall i :: 0 <= i < |s| ==> !IsUpper(r[i])
    ensures forall i :: 0 <= i < |s| && !IsUpper(s[i]) ==> r[i] == s[i]
    ensures forall i :: 0 <= i < |s| && IsUpper(s[i]) ==> 'a' <= r[i] <= 'z' && r[i] as int - 'a' as int == s[i] as int - 'A' as int
  {
    seq(|s|, i requires 0 <= i < |s| => LowerChar(s[i]))
  }

  /** Lowercasing changes a string exactly when it holds an upper-case letter. */
  lemma LowerFixedPoints(s: string)
    ensures Lower(s) == s <==> forall i :: 0 <= i < |s| ==> !IsUpper(s[i])
  {
  }

  // ------------------------------------------------------------- clean

  /** `re.sub(r'[^a-z0-9]', ' ', s)`: every character outside `[a-z0-9]`
      becomes one space, the others stay where they are. */
  function Clean(s: string): (r: string)
    ensures |r| == |s|
    ensures InAlphabet(r)
    ensures forall i :: 0 <= i < |s| && IsLowerAlnum(s[i]) ==> r[i] == s[i]
    ensures forall i :: 0 <= i < |s| && !IsLowerAlnum(s[i]) ==> r[i] == ' '
  {
    seq(|s|, i requires 0 <= i < |s| => if IsLowerAlnum(s[i]) then s[i] else ' ')
  }

  /** Cleaning leaves a string alone exactly when it is already over `[a-z0-9 ]`. */
  lemma CleanFixedPoints(s: string)
    ensures Clean(s) == s <==> InAlphabet(s)
  {
    if InAlphabet(s) {
      assert forall i :: 0 <= i < |s| ==> Clean(s)[i] == s[i];
    }
  }

  // ------------------------------------------------------------- collapse

  /** Collapses every maximal run of whitespace into one space. `afterSpace`
      says the previous input character was whitespace, so that a run
      continuing here produces nothing more. */
  function CollapseFrom(s: string, afterSpace: bool): (r: string)
    ensures |r| <= |s|
    ensures NoDoubleSpace(r)
    ensures SpacesOnly(r)
    ensures afterSpace && |r| > 0 ==> r[0] != ' '
    decreases |s|
  {
    if |s| == 0 then ""
    else if IsWhitespace(s[0]) then
      (if afterSpace then "" else " ") + CollapseFrom(s[1..], true)
    else
      [s[0]] + CollapseFrom(s[1..], false)
  }

  /** `re.sub(r'\s+', ' ', s)`: the maximal non-whitespace runs of `s`, in
      order, with one space between neighbours. */
  function Collapse(s: string): (r: string)
    ensures r == Join(Tokens(s))
    ensures Split(r) == Tokens(s)
  {
    CollapseIsJoinOfTokens(s);
    CollapseFrom(s, false)
  }

  predicate NoWhitespace(s: string)
  {
    forall i :: 0 <= i < |s| ==> !IsWhitespace(s[i])
  }

  /** Length of the leading run of non-whitespace characters. */
  function WordLength(s: string): (k: nat)
    ensures k <= |s|
    ensures NoWhitespace(s[..k])
    ensures k < |s| ==> IsWhitespace(s[k])
    decreases |s|
  {
    if |s| == 0 || IsWhitespace(s[0]) then 0
    else
      var k := WordLength(s[1..]);
      assert s[..k + 1] == [s[0]] + s[1..][..k];
      1 + k
  }

  /** Length of the leading run of whitespace characters. */
  function GapLength(s: string): (m: nat)
    ensures m <= |s|
    ensures forall i :: 0 <= i < m ==> IsWhitespace(s[i])
    ensures m < |s| ==> !IsWhitespace(s[m])
    decreases |s|
  {
    if |s| == 0 || !IsWhitespace(s[0]) then 0 else 1 + GapLength(s[1..])
  }

  /** `re.split(r'\s+', s)`: the pieces between maximal whitespace runs. A
      string that starts or ends with whitespace has an empty first or last
      piece; every other piece is non-empty. */
  function Tokens(s: string): (r: seq<string>)
    ensures |r| >= 1
    ensures forall i :: 0 <= i < |r| ==> NoWhitespace(r[i])
    ensures forall i :: 0 < i < |r| - 1 ==> r[i] != ""
    decreases |s|
  {
    var k := WordLength(s);
    if k == |s| then
      assert s[..k] == s;
      [s]
    else
      var m := GapLength(s[k..]);
      var rest := Tokens(s[k..][m..]);
      assert forall i :: 0 < i < |rest| + 1 ==> ([s[..k]] + rest)[i] == rest[i - 1];
      [s[..k]] + rest
  }

  /** Collapsing past a leading word copies the word. */
  lemma {:induction false} CollapseWord(s: string, k: nat, afterSpace: bool)
    requires 0 < k <= |s|
    requires forall i :: 0 <= i < k ==> !IsWhitespace(s[i])
    ensures CollapseFrom(s, afterSpace) == s[..k] + CollapseFrom(s[k..], false)
    decreases k
  {
    if k > 1 {
      CollapseWord(s[1..], k - 1, false);
      assert s[1..][k - 1..] == s[k..];
      assert [s[0]] + s[1..][..k - 1] == s[..k];
    } else {
      assert s[..1] == [s[0]];
    }
  }

  /** Collapsing past a leading whitespace run writes at most one space. */
  lemma {:induction false} CollapseGap(s: string, m: nat, afterSpace: bool)
    requires 0 < m <= |s|
    requires forall i :: 0 <= i < m ==> IsWhitespace(s[i])
    ensures CollapseFrom(s, afterSpace) == (if afterSpace then "" else " ") + CollapseFrom(s[m..], true)
    decreases m
  {
    if m > 1 {
      CollapseGap(s[1..], m - 1, true);
      assert s[1..][m - 1..] == s[m..];
    }
  }

  /** Collapsing writes each whitespace-separated piece, one space between
      neighbours: the first piece, then the collapse of what follows its gap. */
  lemma {:induction false} CollapseIsJoinOfTokens(s: string)
    ensures CollapseFrom(s, false) == Join(Tokens(s))
    decreases |s|
  {
    var k := WordLength(s);
    if k == |s| {
      assert Tokens(s) == [s];
      if k > 0 {
        CollapseWord(s, k, false);
        assert s[..k] == s && s[k..] == "";
        assert CollapseFrom(s, false) == s + "";
      }
    } else {
      var t := s[k..];
      var m := GapLength(t);
      var u := t[m..];
      var rest := Tokens(u);
      var word := s[..k];
      if k > 0 {
        assert forall i :: 0 <= i < k ==> word[i] == s[i];
        CollapseWord(s, k, false);
      } else {
        assert t == s && word == "";
      }
      assert CollapseFrom(s, false) == word + CollapseFrom(t, false);
      CollapseGap(t, m, false);
      assert CollapseFrom(u, true) == CollapseFrom(u, false);
      CollapseIsJoinOfTokens(u);
      assert CollapseFrom(s, false) == word + (" " + Join(rest));
      assert Tokens(s) == [word] + rest;
      assert ([word] + rest)[0] == word && ([word] + rest)[1..] == rest;
      assert Join([word] + rest) == word + " " + Join(rest);
      assert word + (" " + Join(rest)) == word + " " + Join(rest);
    }
  }


  /** The non-whitespace characters of a string, in order. */
  function Words(s: string): string
  {
    if |s| == 0 then ""
    else (if IsWhitespace(s[0]) then "" else [s[0]]) + Words(s[1..])
  }

  /** Collapsing only removes whitespace: every other character survives, in order. */
  lemma {:induction false} CollapseKeepsWords(s: string, afterSpace: bool)
    ensures Words(CollapseFrom(s, afterSpace)) == Words(s)
    decreases |s|
  {
    if |s| > 0 {
      CollapseKeepsWords(s[1..], true);
      CollapseKeepsWords(s[1..], false);
      var r := CollapseFrom(s, afterSpace);
      if IsWhitespace(s[0]) {
        var tail := CollapseFrom(s[1..], true);
        if !afterSpace {
          assert r == " " + tail;
          assert r[1..] == tail;
        } else {
          assert r == tail;
        }
      } else {
        var tail := CollapseFrom(s[1..], false);
        assert r == [s[0]] + tail;
        assert r[1..] == tail;
      }
    }
  }

  lemma {:induction false} CollapseFromFixes(s: string, afterSpace: bool)
    requires SpacesOnly(s) && NoDoubleSpace(s)
    requires afterSpace && |s| > 0 ==> s[0] != ' '
    ensures CollapseFrom(s, afterSpace) == s
    decreases |s|
  {
    if |s| > 0 {
      assert SpacesOnly(s[1..]) && NoDoubleSpace(s[1..]);
      if |s| > 1 && s[0] == ' ' {
        assert s[1] != ' ';
      }
      CollapseFromFixes(s[1..], IsWhitespace(s[0]));
      assert s == [s[0]] + s[1..];
    }
  }

  /** The strings `re.sub(r'\s+', ' ', ·)` leaves unchanged are exactly those
      whose only whitespace is single spaces. */
  lemma CollapseFixedPoints(s: string)
    ensures Collapse(s) == s <==> SpacesOnly(s) && NoDoubleSpace(s)
  {
    if SpacesOnly(s) && NoDoubleSpace(s) {
      CollapseFromFixes(s, false);
    }
  }

  /** Collapsing never introduces a character outside `[a-z0-9 ]`. */
  lemma {:induction false} CollapseKeepsAlphabet(s: string, afterSpace: bool)
    requires InAlphabet(s)
    ensures InAlphabet(CollapseFrom(s, afterSpace))
    decreases |s|
  {
    if |s| > 0 {
      assert InAlphabet(s[1..]);
      CollapseKeepsAlphabet(s[1..], true);
      CollapseKeepsAlphabet(s[1..], false);
    }
  }

  // ------------------------------------------------------------- split / join

  /** Python's `s.split(' ')`: the pieces between single spaces. Empty pieces
      are kept, so the result is never empty (`"".split(' ') == [""]`). */
  function Split(s: string): (r: seq<string>)
    ensures |r| >= 1
    ensures forall i :: 0 <= i < |r| ==> ' ' !in r[i]
    decreases |s|
  {
    if |s| == 0 then [""]
    else
      var rest := Split(s[1..]);
      if s[0] == ' ' then [""] + rest
      else [[s[0]] + rest[0]] + rest[1..]
  }

  /** Python's `' '.join(ts)`. Splitting the join of space-free pieces
      gives back the pieces, empty ones included. */
  function Join(ts: seq<string>): (r: string)
    ensures |ts| >= 1 && (forall i :: 0 <= i < |ts| ==> ' ' !in ts[i]) ==> Split(r) == ts
    decreases |ts|
  {
    if |ts| == 0 then ""
    else if |ts| == 1 then
      SplitWord(ts[0]);
      ts[0]
    else
      var w := Join(ts[1..]);
      SplitAfterSpace(ts[0], w);
      assert forall i :: 0 <= i < |ts| - 1 ==> ts[1..][i] == ts[i + 1];
      assert ts == [ts[0]] + ts[1..];
      ts[0] + " " + w
  }

  /** A space-free string splits into itself. */
  lemma SplitWord(t: string)
    ensures ' ' !in t ==> Split(t) == [t]
  {
    if ' ' !in t {
      SplitAfterWord(t, "");
      assert t + "" == t;
    }
  }

  /** A space-free word followed by a space splits off as the first piece. */
  lemma SplitAfterSpace(t: string, w: string)
    ensures ' ' !in t ==> Split(t + " " + w) == [t] + Split(w)
  {
    if ' ' !in t {
      assert t + " " + w == t + (" " + w);
      SplitAfterWord(t, " " + w);
      assert (" " + w)[1..] == w;
      assert Split(" " + w) == [""] + Split(w);
      assert t + "" == t;
    }
  }

  /** Joining the pieces of a split gives back the original string. */
  lemma {:induction false} JoinSplit(s: string)
    ensures Join(Split(s)) == s
    decreases |s|
  {
    if |s| > 0 {
      var rest := Split(s[1..]);
      JoinSplit(s[1..]);
      if s[0] == ' ' {
        assert ([""] + rest)[1..] == rest;
      } else {
        var ts := [[s[0]] + rest[0]] + rest[1..];
        if |rest| > 1 {
          assert ts[1..] == rest[1..];
          assert Join(rest) == rest[0] + " " + Join(rest[1..]);
        }
      }
    }
  }

  /** Splitting a string that begins with a space-free piece `t`. */
  lemma {:induction false} SplitAfterWord(t: string, u: string)
    requires ' ' !in t
    ensures Split(t + u) == [t + Split(u)[0]] + Split(u)[1..]
    decreases |t|
  {
    if |t| == 0 {
      var r := Split(u);
      assert t + u == u;
      assert t + r[0] == r[0];
      assert r == [r[0]] + r[1..];
    } else {
      assert (t + u)[1..] == t[1..] + u;
      assert (t + u)[0] == t[0];
      SplitAfterWord(t[1..], u);
      assert [t[0]] + (t[1..] + Split(u)[0]) == t + Split(u)[0];
    }
  }

  /** Splitting on spaces reads the string as a sequence of pieces: a string is
      free of double spaces exactly when no piece other than the first and the
      last is empty. */
  predicate InnerPiecesNonEmpty(ts: seq<string>)
  {
    forall i :: 0 < i < |ts| - 1 ==> ts[i] != ""
  }

  lemma {:induction false} JoinStartsWithSpace(ts: seq<string>)
    requires forall i :: 0 <= i < |ts| ==> ' ' !in ts[i]
    ensures |Join(ts)| > 0 && Join(ts)[0] == ' ' <==> |ts| >= 2 && ts[0] == ""
  {
    if |ts| >= 2 {
      assert Join(ts) == ts[0] + " " + Join(ts[1..]);
      if ts[0] != "" {
        assert Join(ts)[0] == ts[0][0];
        assert ts[0][0] in ts[0];
      }
    } else if |ts| == 1 && |ts[0]| > 0 {
      assert ts[0][0] in ts[0];
    }
  }

  lemma {:induction false} NoDoubleSpaceJoin(ts: seq<string>)
    requires |ts| >= 1
    requires forall i :: 0 <= i < |ts| ==> ' ' !in ts[i]
    ensures NoDoubleSpace(Join(ts)) <==> InnerPiecesNonEmpty(ts)
    decreases |ts|
  {
    if |ts| == 1 {
      assert forall i :: 0 <= i < |ts[0]| ==> ts[0][i] != ' ' by {
        forall i | 0 <= i < |ts[0]| ensures ts[0][i] != ' ' {
          assert ts[0][i] in ts[0];
        }
      }
    } else {
      var t := ts[0];
      var w := Join(ts[1..]);
      var j := Join(ts);
      assert j == t + " " + w;
      NoDoubleSpaceJoin(ts[1..]);
      JoinStartsWithSpace(ts[1..]);
      forall i | 0 <= i < |t| ensures t[i] != ' ' {
        assert t[i] in t;
      }
      assert forall i :: 0 <= i < |t| ==> j[i] == t[i];
      assert j[|t|] == ' ';
      assert forall i :: |t| < i < |j| ==> j[i] == w[i - |t| - 1];
      if NoDoubleSpace(j) {
        forall i | 0 < i < |w| ensures !(w[i - 1] == ' ' && w[i] == ' ') {
          assert j[i + |t|] == w[i - 1] && j[i + |t| + 1] == w[i];
        }
        if |ts| >= 3 {
          assert ts[1..][0] == ts[1];
          assert j[|t| + 1] == w[0];
        }
        forall i | 0 < i < |ts| - 1 ensures ts[i] != "" {
          if i > 1 {
            assert ts[1..][i - 1] == ts[i];
          }
        }
      }
      if InnerPiecesNonEmpty(ts) {
        forall i | 0 < i < |ts[1..]| - 1 ensures ts[1..][i] != "" {
          assert ts[1..][i] == ts[i + 1];
        }
        if |ts| >= 3 {
          assert ts[1..][0] == ts[1];
        }
        forall i | 0 < i < |j| ensures !(j[i - 1] == ' ' && j[i] == ' ') {
          if i > |t| + 1 {
            assert j[i - 1] == w[i - 1 - |t| - 1] && j[i] == w[i - |t| - 1];
          }
        }
      }
    }
  }

  /** The pieces of a join stay within `[a-z0-9]`, so the join stays within `[a-z0-9 ]`. */
  lemma {:induction false} JoinInAlphabet(ts: seq<string>)
    requires forall i :: 0 <= i < |ts| ==> AlnumOnly(ts[i])
    ensures InAlphabet(Join(ts))
    decreases |ts|
  {
    if |ts| > 1 {
      JoinInAlphabet(ts[1..]);
      var j := Join(ts);
      assert j == ts[0] + " " + Join(ts[1..]);
      forall i | 0 <= i < |j| ensures IsLowerAlnum(j[i]) || j[i] == ' ' {
        if i > |ts[0]| {
          assert j[i] == Join(ts[1..])[i - |ts[0]| - 1];
        }
      }
    } else if |ts| == 1 {
      assert Join(ts) == ts[0];
    }
  }

  /** A string over `[a-z0-9 ]` splits into pieces over `[a-z0-9]`. */
  lemma {:induction false} SplitAlnum(s: string)
    requires InAlphabet(s)
    ensures forall i :: 0 <= i < |Split(s)| ==> AlnumOnly(Split(s)[i])
    decreases |s|
  {
    if |s| > 0 {
      assert InAlphabet(s[1..]);
      SplitAlnum(s[1..]);
      var rest := Split(s[1..]);
      if s[0] != ' ' {
        var head := [s[0]] + rest[0];
        assert forall k :: 0 < k < |head| ==> head[k] == rest[0][k - 1];
        assert AlnumOnly(head);
      }
    }
  }

  // ------------------------------------------------------------- replace

  /** `s.replace(from, to)` for single characters. */
  function ReplaceChar(s: string, from: char, to: char): (r: string)
    ensures |r| == |s|
    ensures forall i :: 0 <= i < |s| && s[i] != from ==> r[i] == s[i]
    ensures forall i :: 0 <= i < |s| && s[i] == from ==> r[i] == to
    ensures from != to ==> from !in r
  {
    seq(|s|, i requires 0 <= i < |s| => if s[i] == from then to else s[i])
  }

}

=== FILE: wrappers.dfy ===
/** Failure-carrying datatypes shared by the model.
    - Option<T> stands for a value that may be missing: a pandas NaN category,
      an XML element or text node that is absent.
    - Result<T> stands for a computation that may raise: an index error on a
      malformed category path, or the type error of labelling a category
      column that holds nothing but NaN. */
module Wrappers {

  datatype Option<+T> = None | Some(value: T)

  datatype Result<+T> = Ok(value: T) | Err(error: string)

  /** The message Python attaches to an out-of-range list index. */
  const IndexError: string := "IndexError: list index out of range"

  /** Adding a string prefix to a column that pandas stores as floats, which
      it does when every value in it is NaN. */
  const TypeError: string := "TypeError: cannot add a string prefix to a float column"
}
